=== FILE: README.md ===
# OTP lead capture, modelled in Dafny

`form.js` drives a landing page's lead forms through a WhatsApp one-time
password (OTP). A visitor submits name, phone and city. The page validates them
and asks the send-OTP endpoint for a token. Whatever the answer, it saves the
lead once without the token. When no token was issued, that save ends the
submission. When a token was issued, the page then opens an OTP dialog with a
30-second resend countdown. A valid OTP is checked by the verify-OTP endpoint. If the server
accepts it, the lead is saved a second time, with the name prefixed `OTP_` and
the token attached. The outcome of that second save is classified as stored,
duplicate ("already saved", which the page still treats as success) or hard
failure. Resends are available from a button and from a function exposed on
`window`.

The model has these layers, one module each:

- `Text`: JavaScript's `trim`, `includes`, ASCII `toLowerCase` and decimal rendering.
- `JsonValue`: parsed bodies as a JSON datatype, with JavaScript truthiness, `||`, property reads and `String(...)`.
- `Validation`: the lead-form and OTP-form checks.
- `Leads`: the payloads sent to the lead-save endpoint.
- `LeadApi`: how `sendOTP`, `resendOTP`, `verifyOTP` and `submitLeadToApi` turn an HTTP reply into a result.
- `Reconcile`: classification of the verified save and the choice of server message.
- `ResendTimer`: the countdown as a machine that advances one firing at a time.
- `Submission`: the page as one state machine. Its state is the pending slot, the `firstSubmitDone` flag, the countdown, and the `await` a handler is suspended on. Every user action, network reply and timer firing is an event. `Step` maps a state and an event to the next state and a list of effects: requests to send, popups, dialog openings and the redirect.

An HTTP reply is an input value: a network failure with the caught error's
`message` and its `String(...)` form, or a status, the body text and the body as
`JSON.parse` would read it (`None` when it does not parse). An empty body never
parses, because `resp.json()` throws on empty input. Reading a property of a `null` body throws in JavaScript.
Inside the wrappers that throw is caught, so the model treats it as a failed call
(`NullBody`). A JSON object keeps its members in order; a read finds the last
member with that key, as `JSON.parse` does with duplicate keys.

Two behaviours of the code worth noting:

- `resendOTP` also needs the 2xx body to parse as JSON (`form.js:169`). A 2xx reply with an unparsable body is therefore a failed resend, not a successful one.
- When send-OTP returns a 2xx body without a token, the popup after a failed fallback save shows the wrapper's missing `error` field (`undefined`). The model keeps this as `SendAndSaveFailed(None)`.

## Model

| member | source | states |
|---|---|---|
| Text.Trim | form.js:298-300 | `trim()` gives the empty string exactly when every character is ECMAScript white space or a line terminator. Otherwise it gives the slice between the leading and trailing white-space runs, and neither end of that slice is white space |
| Text.TrimIdempotent | form.js:298-300 | trimming an already trimmed value changes nothing |
| Text.Contains | form.js:575-578 | `includes(p)` holds exactly when `p` occurs at some index |
| Text.SubmittedContainsSubmit | form.js:576-577 | every string containing "submitted" contains "submit", so the third alternative of the duplicate test never decides anything |
| Text.LowerAscii | form.js:570 | lowering keeps the length, leaves no capital ASCII letter, turns each capital into its small letter and keeps every other character |
| Text.LowerAsciiIdempotent | form.js:570 | lowering an already lowered string changes nothing |
| Text.NatToStringRoundTrip | form.js:225 | the decimal rendering of a status reads back as that status |
| JsonValue.Lookup | form.js:149 | a property read yields the value of the last member with that key, and `undefined` exactly when no member has it |
| JsonValue.Or | form.js:149 | `a \|\| b` is truthy exactly when one operand is, and is `a` whenever `a` is truthy, `b` otherwise |
| JsonValue.ToJsString | form.js:570 | `String(v)` leaves strings as they are, renders booleans as "true" and "false" and turns every object into "[object Object]". A number becomes decimal digits, after a minus sign when negative, that read back as the number. An array is its elements' renderings joined by commas, with `null` elements empty, so an empty array gives "" and a one-element array gives its element |
| Validation.ReadField | form.js:298-300 | a missing input reads as the empty string; a present one reads as empty exactly when it is all white space |
| Validation.Missing | form.js:303-306 | the missing-field list holds exactly the fields that are empty after trimming, in the order Name, Phone, City |
| Validation.ValidateForm | form.js:298-328 | the form is refused as missing fields exactly when some field is empty after trimming, naming exactly those fields in order. It is refused as an invalid phone exactly when all fields are present and the phone is not ten ASCII digits. Otherwise it is accepted with the trimmed values |
| Validation.MissingListIsCanonical | form.js:303-306 | any ordered list holding the same fields as the missing list is that list |
| Validation.ValidateOtp | form.js:450-466 | an OTP that is all white space is missing. A non-blank OTP whose trimmed value is not 4 to 6 ASCII digits is invalid. Otherwise the trimmed value is accepted |
| Validation.OtpCodeNeverMissing | form.js:450-466 | an OTP whose trimmed value is a valid code passes both checks |
| Leads.DraftOf | form.js:343-349 | the send-OTP payload carries the page address, the fixed project name and the trimmed name, phone and city, and is a valid draft |
| Leads.VerifiedPayloadOfValidSlot | form.js:526-534 | for a stored draft, the verified payload is that draft with the name prefixed `OTP_`, marked verified with the stored token. Its name always differs from the stored one |
| LeadApi.CaughtText | form.js:151-153 | a wrapper's caught error text is the error's message when that is non-empty, else its string form (`String(err)`). It is empty only when both are |
| LeadApi.JsonBody | form.js:148 | `resp.json()` yields nothing for an empty body and the parsed body otherwise |
| LeadApi.EarlyError | form.js:144-148 | a reply reaches body inspection exactly when it is 2xx and `resp.json()` yields a body. Otherwise the error is the caught transport text, the non-2xx status with its text, or a malformed body for a 2xx reply that `resp.json()` cannot read |
| LeadApi.ExtractToken | form.js:149 | the token is the top-level `token` when that is truthy, else a truthy `data.token`, and none exactly when neither is truthy |
| LeadApi.InterpretSend | form.js:137-155 | send-OTP issues a token exactly when the reply is 2xx, its body parses to a non-null value and a token can be extracted. The issued token is truthy and equals the extracted one. A 2xx non-null body without a token is `NoToken` with no error, a `null` body is the caught `NullBody` error, and every early error is reported as such |
| LeadApi.TopLevelTokenWins | form.js:149 | the top-level token is returned even when `data.token` is also present |
| LeadApi.NestedTokenWhenTopLevelEmpty | form.js:149 | an empty top-level token falls through to `data.token` |
| LeadApi.InterpretResend | form.js:158-175 | a resend succeeds exactly when the reply is 2xx and its body parses. Each failure carries its early error |
| LeadApi.ResendIgnoresBody | form.js:169-170 | what a parsed 2xx resend body says does not matter |
| LeadApi.InterpretVerify | form.js:178-202 | an OTP is accepted exactly when the reply is 2xx, the body parses to a non-null value and it carries one of the explicit positive signals. A refusal is always a 2xx reply |
| LeadApi.SilenceIsRefusal | form.js:191-197 | a 2xx object body with none of the signalling keys is a refusal: a missing "no" is never a "yes" |
| LeadApi.EmptyBodyIsMalformed | form.js:144-197 | a 2xx reply with an empty body fails send-OTP, resend and verify alike, whatever a parser would have made of it |
| LeadApi.StrictEqualityOnFlags | form.js:191-197 | `{"success": "true"}` and `{"success": 1}` are refused, because the comparison is `=== true`; a bare `true` body is accepted |
| LeadApi.HttpErrorText | form.js:225 | the save's error text is "HTTP " followed by the decimal digits of the status |
| LeadApi.InterpretSave | form.js:205-233 | a save is ok exactly when the reply is 2xx. A reply keeps its status and body text. The parsed body is `null` when the text is empty or does not parse. The error is present exactly when the save failed. A network failure keeps only the caught error text |
| Reconcile.Keep | form.js:569-570 | `filter(Boolean)` keeps a candidate exactly when it is truthy, and the kept candidate is `String(v)` lowered, which for a string is the string itself lowered |
| Reconcile.AnySaysAlreadySaved | form.js:572-578 | the text test passes exactly when some candidate contains "already" and one of the other words |
| Reconcile.PickServerMessage | form.js:600-607 | with a truthy body, the message is its truthy `message`, else its truthy `error`, else the whole body. Without one, it is the non-empty body text, else the non-empty error, else "HTTP " and the status, or "?" when the status is missing or 0 |
| Reconcile.EmptyFailureShowsStatus | form.js:600-607 | a failed reply with an empty body shows the save's own "HTTP <status>" error, so the "?" fallback is never reached by a reply |
| Reconcile.Classify | form.js:547-607 | the verified save is stored exactly when it is ok. It is a duplicate exactly when it failed and either the status is 409 or some lowered candidate contains "already" and "submit" or "contact". Any other failure carries the server message |
| Reconcile.ConflictIsDuplicate | form.js:579 | a 409 reply is a duplicate whatever its body |
| Reconcile.StatusTextNeverSaysAlreadySaved | form.js:225 | the save's own "HTTP <status>" error text never passes the text test |
| Reconcile.NoDuplicateWithoutJson | form.js:561-578 | without a truthy body, only the body text and the error can pass the test |
| Reconcile.EmptyRejectionIsHardFailure | form.js:561-579 | an empty non-2xx reply other than 409 is a hard failure |
| Reconcile.AlreadySubmittedContactMatches | form.js:570-578 | "Already submitted contact" passes the lowered text test |
| Reconcile.BodyFieldMarksDuplicate | form.js:561-578 | a failed save whose body field says "already saved" is a duplicate |
| Reconcile.AlreadySubmittedMessageIsDuplicate | form.js:561-579 | a non-2xx reply whose body message says "Already submitted" is a duplicate for any status |
| Reconcile.ArrayMessageIsDuplicate | form.js:561-579 | a JSON `message` that is the array `["Already submitted contact"]` is read through `String(...)` and marks a duplicate for any non-2xx status |
| Reconcile.PlainTextFailureShowsBody | form.js:600-607 | a non-JSON failure shows its body text as the server message |
| Reconcile.NetworkFailureShowsCaughtText | form.js:229-231 | a rejected save request is a hard failure that shows the caught error text, unless that text itself reads as "already submitted" |
| ResendTimer.Start | form.js:87-98 | starting a countdown of `n` runs it, disables resend and sets the remaining seconds to `n`. For positive `n` the timer is consistent |
| ResendTimer.Tick | form.js:99-107 | a firing leaves a stopped timer alone. It stops and enables the timer when the count reaches zero, and otherwise counts down one second. It keeps the timer consistent |
| ResendTimer.CountingDown | form.js:99-106 | after `k < n` firings, a countdown from `n` shows `n - k` and is still running and disabled |
| ResendTimer.TicksSplit | form.js:99-107 | `a + b` firings are `a` firings followed by `b` |
| ResendTimer.StoppedStaysPut | form.js:110-115 | no firing changes a stopped timer |
| ResendTimer.ExpiresAfterExactly | form.js:87-124 | a countdown of `n` enables resend and shows the tap-to-resend text after `n` firings (one when `n` is not positive). It stays stopped and enabled afterwards |
| ResendTimer.ThirtySecondCountdown | form.js:427 | the 30-second countdown is disabled for 29 firings and enabled at the 30th |
| ResendTimer.StopFreezes | form.js:110-115 | stopping is idempotent, and a countdown stopped after ten firings stays at 20 seconds and disabled |
| ResendTimer.HaltedTimerIgnoresTicks | form.js:110-134 | after a stop, the "Resending..." state or the end-of-session clean-up, no firing changes the timer. A resend in flight or a finished session never gets its button back |
| Submission.ReachableSlotHasUsableToken | form.js:467 | on every page reached from the initial one, the token check passes exactly when the slot is filled, and it offers the stored token |
| Submission.OutcomeEffects | form.js:547-613 | a stored save shows the "Verified" popup and a duplicate the "already saved" popup, each with the redirect. A hard failure shows only the "Partial Success" popup with the picked server message. No request follows |
| Submission.StepPreservesInv | form.js:386-391 | every step keeps the machine invariant. A filled slot holds a valid draft with a truthy token. A running or enabled countdown implies a filled slot. The countdown is consistent. Each suspended handler's facts hold |
| Submission.RunPreservesInv | form.js:11-12 | every run from a state satisfying the invariant ends in one |
| Submission.FormRejectedIffInvalid | form.js:298-362 | a lead form causes no request and no state change exactly when validation fails, and the popup names what failed. An accepted form sends exactly its draft and leaves the slot alone |
| Submission.SendFailureSavesOnceWithoutToken | form.js:362-368 | after a failed send-OTP, exactly one save of the untokenized draft goes out and the slot is not written |
| Submission.FallbackSaveEndsSubmission | form.js:368-384 | the tokenless save ends the submission with no further request. The popup reports submission exactly when that save succeeded. Otherwise the "Error" popup carries send-OTP's error |
| Submission.TokenlessBodyShowsNoError | form.js:149-153 | a parsed 2xx send-OTP body without a token leads to one plain save, and if that save fails the "Error" popup has no error text (`undefined`) |
| Submission.SendSuccessStoresToken | form.js:386-394 | a successful send-OTP stores the draft with its token, and the first save is sent without the token |
| Submission.FirstSaveOpensOtpDialog | form.js:394-429 | whatever the first save's reply, the dialog opens and the countdown restarts at 30. The flag records whether that save succeeded |
| Submission.OtpChecksInOrder | form.js:450-501 | the missing check, then the format check, then the pending-token check each refuse without a request or state change. A request goes out exactly when all three pass, and it carries the stored token and the trimmed OTP |
| Submission.AcceptedOtpSavesVerifiedLead | form.js:524-544 | an accepted OTP sends one save: the stored draft with the name prefixed `OTP_`, the stored mobile, city and project, and the stored token marked verified |
| Submission.RefusedOtpKeepsSlot | form.js:501-515 | a refused or failed verification keeps the slot and shows the failure popup. The popup carries an error exactly when the call itself failed |
| Submission.RetryReusesToken | form.js:510-521 | dismissing the failure popup restarts the countdown at 30 and keeps the slot, so the next valid OTP is checked against the same token |
| Submission.VerifiedSaveEndsSession | form.js:544-625 | whatever the verified save's reply, the slot is emptied, the flag cleared, the countdown stopped and resend disabled. The redirect is scheduled exactly when the save is not a hard failure, and always for 2xx and 409 |
| Submission.NoTokenNoRequests | form.js:632-637 | without a usable token, neither an OTP nor a resend request goes out and the state is unchanged |
| Submission.EnabledButtonResendsPendingToken | form.js:242-253 | an enabled resend button always has a token to resend. A click sends it, stops the countdown and shows "Resending..." |
| Submission.ResendReplyRestartsCountdown | form.js:254-270 | a resend reply restarts the countdown at 30 on success and at 10 on failure, and keeps the slot |
| Submission.FormHalf | form.js:361-429 | a valid form and a token from send-OTP: the draft goes to send-OTP and is then saved without the token. The slot then holds the draft and token, and the dialog opens with a 30-second countdown |
| Submission.OtpHalf | form.js:501-558 | a valid OTP, an accepting verify and a stored save: the token and OTP are verified, the verified payload is saved, and the session ends with a redirect |
| Submission.HappyPath | form.js:361-558 | from the initial page, the whole path sends exactly four requests in order: send-OTP, plain save, verify, verified save. It ends with the slot empty and a redirect |
| Submission.RefusedThenRetry | form.js:501-521 | a refused OTP followed by dismissing the popup returns to awaiting an OTP, with the slot unchanged and the countdown at 30 |

## Left out

- DOM work is not modelled: creating the resend elements, modals, backdrops, loaders and popup styling. Popups and dialog openings are effects named by their title.
- `fetch` and `JSON.parse` are not modelled. A reply is given as a status, the body text and an already-parsed body. A `resp.text()` that fails reads as the empty string.
- Numbers in JSON are integers; floating-point values and their rendering are left out. Model integers are exact and rendered in full decimal, unlike JavaScript numbers beyond 2^53 or from 1e21 on (which `String(...)` renders in exponent form). No decision of the model depends on this, since digits never contain "already".
- The text `JSON.stringify` produces for the partial-success message is not modelled. The model records that the whole body is shown (`SerializedBody`).
- Real time is not modelled: `setInterval` is the `TimerFired` event, and the delayed redirect is the `ScheduleRedirect` effect.
- Concurrency is left out on purpose. While a handler awaits a reply, the model delivers only that reply, timer firings and, for the failure popup, its dismissal. Other events in that phase are ignored. The page itself does not always block them: nothing covers the page during the fallback save, and the verify, verified-save and resend loaders can be dismissed by an outside click. Interleaved forms and stale replies are not modelled.
- The `pendingFormData.phone` fallback for the mobile number (`form.js:530`) is not modelled. The slot is always built with a ten-digit `mobile`, so that fallback is never taken. The `"Sobha"` project-name fallback is modelled, but it is never taken either.
- `firstSubmitDone` is recorded but no handler reads it.
- A page without the OTP form (`form.js:628`) or without the resend elements is not modelled: the handlers' early returns for missing elements are not modelled.
- Lowercasing is ASCII only. It decides "already", "submit" and "contact" exactly as full Unicode lowercasing would. Only two non-ASCII characters lower to ASCII letters: U+0130 lowers to "i" followed by U+0307, and the Kelvin sign lowers to "k". None of those three words contains "k", and the U+0307 after an "i" cannot be followed by the rest of any of them.
- Console logging is not modelled, and neither are the exception branch of the resend button (`form.js:271-275`) nor the value the exposed resend function returns. `resendOTP` never throws, so that branch is unreachable.

=== FILE: api.dfy ===
/** The four endpoint wrappers of form.js (`sendOTP`, `resendOTP`,
    `verifyOTP`, `submitLeadToApi`), each turning what `fetch` delivered into
    the wrapper's result without letting an exception escape. The request
    itself is not modelled: a response is an input. */
module LeadApi {
  import opened Wrappers
  import opened JsonValue
  import Text

  /** What `fetch` delivered: either a rejection, given by the caught value's
      `message` property (empty when it has none) and its `String(...)`
      rendering, or a status with the body text (empty when reading it failed)
      and the outcome of parsing that text as JSON (`None` when parsing throws). */
  datatype HttpResponse =
    | NetworkFailure(message: string, rendered: string)
    | Reply(status: nat, text: string, parsed: Option<Json>)

  /** The text every wrapper's `catch` reports: `err.message || String(err)`. */
  function CaughtText(message: string, rendered: string): (t: string)
    ensures message != "" ==> t == message
    ensures message == "" ==> t == rendered
    ensures t == "" <==> message == "" && rendered == ""
  {
    if message != "" then message else rendered
  }

  /** What `resp.json()` yields for a reply: the parsed body, and nothing for an
      empty body, on which the parser throws whatever `parsed` says. */
  function JsonBody(resp: HttpResponse): (b: Option<Json>)
    requires resp.Reply?
    ensures resp.text == "" ==> b.None?
    ensures resp.text != "" ==> b == resp.parsed
  {
    if resp.text == "" then None else resp.parsed
  }

  /** `Response.ok`. */
  predicate IsOkStatus(status: nat) {
    200 <= status <= 299
  }

  predicate IsOkReply(resp: HttpResponse) {
    resp.Reply? && IsOkStatus(resp.status)
  }

  /** Why a wrapper reported failure, in place of the caught exception's message. */
  datatype ApiError =
    | HttpStatus(status: nat, text: string)  // the wrapper threw "<op> failed: <status> <text>"
    | Transport(message: string)             // `fetch` itself rejected
    | MalformedBody                          // `resp.json()` rejected
    | NullBody                               // a property read on a `null` body threw

  /** The error every wrapper but `submitLeadToApi` reports for a response that
      did not reach the body-inspection stage. */
  function EarlyError(resp: HttpResponse): (e: Option<ApiError>)
    ensures e.None? <==> IsOkReply(resp) && JsonBody(resp).Some?
    ensures resp.NetworkFailure? ==> e == Some(Transport(CaughtText(resp.message, resp.rendered)))
    ensures resp.Reply? && !IsOkStatus(resp.status) ==> e == Some(HttpStatus(resp.status, resp.text))
    ensures IsOkReply(resp) && JsonBody(resp).None? ==> e == Some(MalformedBody)
  {
    match resp
    case NetworkFailure(m, rendered) => Some(Transport(CaughtText(m, rendered)))
    case Reply(status, text, _) =>
      if !IsOkStatus(status) then Some(HttpStatus(status, text))
      else if JsonBody(resp).None? then Some(MalformedBody)
      else None
  }

  // ---------------------------------------------------------------- sendOTP

  /** `sendOTP`'s result: a truthy token, a 2xx body without one (`ok: false`
      and no error), or a caught error. */
  datatype SendOutcome = TokenIssued(token: Json) | NoToken | SendError(error: ApiError)

  /** `data.token || (data.data && data.data.token) || null`, with `null` as `None`. */
  function ExtractToken(data: Json): (r: Option<Json>)
    ensures r.None? || Truthy(r)
    ensures Truthy(Get(data, "token")) ==> r == Get(data, "token")
    ensures r.Some? && r != Get(data, "token") ==>
      Truthy(Get(data, "data")) && r == GetOpt(Get(data, "data"), "token")
    ensures r.None? <==> (!Truthy(Get(data, "token"))
      && !(Truthy(Get(data, "data")) && Truthy(GetOpt(Get(data, "data"), "token"))))
  {
    var nested := if Truthy(Get(data, "data")) then GetOpt(Get(data, "data"), "token") else None;
    var t := Or(Get(data, "token"), nested);
    if Truthy(t) then t else None
  }

  function InterpretSend(resp: HttpResponse): (r: SendOutcome)
    ensures r.TokenIssued? <==> (IsOkReply(resp) && JsonBody(resp).Some? && JsonBody(resp).value != JNull
      && ExtractToken(JsonBody(resp).value).Some?)
    ensures r.TokenIssued? ==> IsTruthy(r.token) && Some(r.token) == ExtractToken(JsonBody(resp).value)
    ensures r.NoToken? <==> (IsOkReply(resp) && JsonBody(resp).Some? && JsonBody(resp).value != JNull
      && ExtractToken(JsonBody(resp).value).None?)
    ensures IsOkReply(resp) && JsonBody(resp) == Some(JNull) ==> r == SendError(NullBody)
    ensures EarlyError(resp).Some? ==> r == SendError(EarlyError(resp).value)
  {
    match EarlyError(resp)
    case Some(e) => SendError(e)
    case None =>
      var data := JsonBody(resp).value;
      if data == JNull then SendError(NullBody)
      else
        match ExtractToken(data)
        case Some(t) => TokenIssued(t)
        case None => NoToken
  }

  /** A top-level token wins over a nested one, whatever the nested one is. */
  lemma TopLevelTokenWins(status: nat, text: string, t: Json, inner: Json, rest: seq<Member>)
    requires IsOkStatus(status) && text != "" && IsTruthy(t)
    ensures InterpretSend(Reply(status, text, Some(JObj(rest + [Member("data", JObj([Member("token", inner)])), Member("token", t)]))))
      == TokenIssued(t)
  {
  }

  /** A falsy top-level token (here the empty string) defers to `data.token`. */
  lemma NestedTokenWhenTopLevelEmpty(status: nat, text: string, t: Json)
    requires IsOkStatus(status) && text != "" && IsTruthy(t)
    ensures InterpretSend(Reply(status, text, Some(JObj([Member("token", JStr("")), Member("data", JObj([Member("token", t)]))]))))
      == TokenIssued(t)
  {
  }

  // -------------------------------------------------------------- resendOTP

  datatype ResendOutcome = Resent | ResendError(error: ApiError)

  /** `resendOTP`: any 2xx reply whose body parses as JSON counts; the body's contents are not looked at. */
  function InterpretResend(resp: HttpResponse): (r: ResendOutcome)
    ensures r.Resent? <==> IsOkReply(resp) && JsonBody(resp).Some?
    ensures r.ResendError? ==> Some(r.error) == EarlyError(resp)
  {
    match EarlyError(resp)
    case Some(e) => ResendError(e)
    case None => Resent
  }

  /** The body of a successful resend is irrelevant: any two parsed 2xx replies agree. */
  lemma ResendIgnoresBody(status: nat, t1: string, t2: string, b1: Json, b2: Json)
    requires IsOkStatus(status) && t1 != "" && t2 != ""
    ensures InterpretResend(Reply(status, t1, Some(b1))) == InterpretResend(Reply(status, t2, Some(b2))) == Resent
  {
  }

  // -------------------------------------------------------------- verifyOTP

  datatype VerifyOutcome = OtpAccepted | OtpRefused | VerifyError(error: ApiError)

  /** The explicit confirmations `verifyOTP` accepts; each comparison is `===`,
      so only the boolean `true` and the exact string "success" qualify. */
  predicate PositiveSignal(data: Json) {
    || Get(data, "success") == Some(JBool(true))
    || Get(data, "status") == Some(JStr("success"))
    || data == JBool(true)
    || (Truthy(Get(data, "data"))
        && (GetOpt(Get(data, "data"), "verified") == Some(JBool(true))
            || GetOpt(Get(data, "data"), "success") == Some(JBool(true))))
  }

  function InterpretVerify(resp: HttpResponse): (r: VerifyOutcome)
    ensures r.OtpAccepted? <==> (IsOkReply(resp) && JsonBody(resp).Some? && JsonBody(resp).value != JNull
      && PositiveSignal(JsonBody(resp).value))
    ensures r.OtpRefused? ==> IsOkReply(resp)
    ensures EarlyError(resp).Some? ==> r == VerifyError(EarlyError(resp).value)
  {
    match EarlyError(resp)
    case Some(e) => VerifyError(e)
    case None =>
      var data := JsonBody(resp).value;
      if data == JNull then VerifyError(NullBody)
      else if PositiveSignal(data) then OtpAccepted
      else OtpRefused
  }

  /** Keys whose presence can make a verify body positive. */
  predicate HasSignalKey(ms: seq<Member>) {
    exists i :: 0 <= i < |ms| && ms[i].key in {"success", "status", "data"}
  }

  /** The absence of a negative answer is never success: a 2xx object body
      carrying none of the signalling keys is refused. */
  lemma SilenceIsRefusal(status: nat, text: string, ms: seq<Member>)
    requires IsOkStatus(status) && text != "" && !HasSignalKey(ms)
    ensures InterpretVerify(Reply(status, text, Some(JObj(ms)))) == OtpRefused
  {
  }

  /** Truthy but non-boolean flags do not confirm: `{"success": "true"}` and `{"success": 1}` are refused. */
  lemma StrictEqualityOnFlags(status: nat, text: string)
    requires IsOkStatus(status) && text != ""
    ensures InterpretVerify(Reply(status, text, Some(JObj([Member("success", JStr("true"))])))) == OtpRefused
    ensures InterpretVerify(Reply(status, text, Some(JObj([Member("success", JNum(1))])))) == OtpRefused
    ensures InterpretVerify(Reply(status, text, Some(JBool(true)))) == OtpAccepted
  {
  }

  /** A 2xx reply with an empty body fails every JSON-reading wrapper, whatever
      a parser would have made of it: `resp.json()` throws on empty input. */
  lemma EmptyBodyIsMalformed(status: nat, parsed: Option<Json>)
    requires IsOkStatus(status)
    ensures InterpretSend(Reply(status, "", parsed)) == SendError(MalformedBody)
    ensures InterpretResend(Reply(status, "", parsed)) == ResendError(MalformedBody)
    ensures InterpretVerify(Reply(status, "", parsed)) == VerifyError(MalformedBody)
  {
  }

  // -------------------------------------------------------- submitLeadToApi

  /** `submitLeadToApi`'s result object; `None` is a key the object lacks. */
  datatype SaveResult = SaveResult(
    ok: bool,
    status: Option<nat>,
    bodyText: Option<string>,
    bodyJson: Option<Json>,
    error: Option<string>)

  /** The `error` field of a non-2xx save: `HTTP <status>`. */
  function HttpErrorText(status: nat): (s: string)
    ensures |s| > 5 && s[..5] == "HTTP " && Text.AllDigits(s[5..])
    ensures Text.DecimalValue(s[5..]) == status
  {
    var digits := Text.NatToString(status);
    Text.NatToStringRoundTrip(status);
    assert ("HTTP " + digits)[5..] == digits;
    "HTTP " + digits
  }

  function InterpretSave(resp: HttpResponse): (r: SaveResult)
    ensures r.ok <==> IsOkReply(resp)
    ensures resp.Reply? ==> r.status == Some(resp.status) && r.bodyText == Some(resp.text)
    ensures resp.Reply? ==> (r.bodyJson ==
      Some(if resp.text == "" || resp.parsed.None? then JNull else resp.parsed.value))
    ensures resp.Reply? ==> (r.error.Some? <==> !r.ok)
    ensures resp.Reply? && !r.ok ==> r.error == Some(HttpErrorText(resp.status))
    ensures resp.NetworkFailure? ==>
      r == SaveResult(false, None, None, None, Some(CaughtText(resp.message, resp.rendered)))
  {
    match resp
    case NetworkFailure(m, rendered) => SaveResult(false, None, None, None, Some(CaughtText(m, rendered)))
    case Reply(status, text, parsed) =>
      var json := if text == "" then JNull else parsed.GetOr(JNull);
      if IsOkStatus(status) then SaveResult(true, Some(status), Some(text), Some(json), None)
      else SaveResult(false, Some(status), Some(text), Some(json), Some(HttpErrorText(status)))
  }
}

=== FILE: json.dfy ===
/** Parsed JSON response bodies and the JavaScript operations form.js applies
    to them: truthiness, property reads and `String(...)`. */
module JsonValue {
  import opened Wrappers
  import Text

  /** A value `JSON.parse` can produce. Numbers are integers; an object keeps
      its members in source order, duplicates included. */
  datatype Json =
    | JNull
    | JBool(b: bool)
    | JNum(n: int)
    | JStr(s: string)
    | JArr(elems: seq<Json>)
    | JObj(members: seq<Member>)

  datatype Member = Member(key: string, value: Json)

  /** The value JavaScript coerces to `true` in `if`, `||`, `&&` and `!!`. */
  predicate IsTruthy(j: Json) {
    match j
    case JNull => false
    case JBool(b) => b
    case JNum(n) => n != 0
    case JStr(s) => s != ""
    case JArr(_) => true
    case JObj(_) => true
  }

  /** Truthiness of a property read that may have produced `undefined`. */
  predicate Truthy(v: Option<Json>) {
    v.Some? && IsTruthy(v.value)
  }

  /** The position of the last member named `key` among the first `n`, or -1. */
  function LastIndex(ms: seq<Member>, key: string, n: nat): (i: int)
    requires n <= |ms|
    ensures -1 <= i < n
    ensures i >= 0 ==> ms[i].key == key
    ensures forall k :: i < k < n ==> ms[k].key != key
  {
    if n == 0 then -1
    else if ms[n - 1].key == key then n - 1
    else LastIndex(ms, key, n - 1)
  }

  /** The value under `key` among `ms`; `JSON.parse` keeps the last of duplicate keys. */
  function Lookup(ms: seq<Member>, key: string): (r: Option<Json>)
    ensures r.None? <==> forall k :: 0 <= k < |ms| ==> ms[k].key != key
    ensures r.Some? ==>
      exists i :: 0 <= i < |ms| && ms[i] == Member(key, r.value) && (forall k :: i < k < |ms| ==> ms[k].key != key)
  {
    var i := LastIndex(ms, key, |ms|);
    if i < 0 then None else Some(ms[i].value)
  }

  /** `j.key` on a non-null value: objects answer from their members, any other
      value has no such own property and yields `undefined`. (On `null` the read
      throws; callers rule that case out first.) */
  function Get(j: Json, key: string): (r: Option<Json>)
    ensures !j.JObj? ==> r.None?
  {
    match j
    case JObj(ms) => Lookup(ms, key)
    case _ => None
  }

  /** `a.key` where `a` is itself the result of a read: `undefined` stays `undefined`. */
  function GetOpt(v: Option<Json>, key: string): Option<Json> {
    match v
    case Some(j) => Get(j, key)
    case None => None
  }

  /** `a || b`: the first operand when it is truthy, otherwise the second. */
  function Or(a: Option<Json>, b: Option<Json>): (r: Option<Json>)
    ensures Truthy(r) <==> Truthy(a) || Truthy(b)
    ensures Truthy(a) ==> r == a
    ensures !Truthy(a) ==> r == b
  {
    if Truthy(a) then a else b
  }

  /** The string `Array.prototype.join(",")` uses: `null` becomes empty. */
  function JoinComma(parts: seq<string>): (r: string)
    ensures parts == [] ==> r == ""
    ensures |parts| == 1 ==> r == parts[0]
    ensures |parts| >= 2 ==> r == JoinComma(parts[..|parts| - 1]) + "," + parts[|parts| - 1]
  {
    if parts == [] then ""
    else if |parts| == 1 then parts[0]
    else JoinComma(parts[..|parts| - 1]) + "," + parts[|parts| - 1]
  }

  /** `String(j)`: strings as they are, numbers in decimal, arrays joined by
      commas, every object as `[object Object]`. */
  function ToJsString(j: Json): (r: string)
    ensures j.JStr? ==> r == j.s
    ensures j.JObj? ==> r == "[object Object]"
    ensures j.JNum? && j.n >= 0 ==> Text.AllDigits(r) && Text.DecimalValue(r) == j.n
    ensures j.JNum? && j.n < 0 ==> |r| >= 2 && r[0] == '-' && Text.AllDigits(r[1..]) && Text.DecimalValue(r[1..]) == -j.n
    ensures j.JBool? ==> r == (if j.b then "true" else "false")
    ensures j.JArr? ==> r == JoinComma(seq(|j.elems|, i requires 0 <= i < |j.elems| =>
      if j.elems[i].JNull? then "" else ToJsString(j.elems[i])))
    ensures j.JArr? && j.elems == [] ==> r == ""
    ensures j.JArr? && |j.elems| == 1 ==> r == (if j.elems[0].JNull? then "" else ToJsString(j.elems[0]))
    decreases j
  {
    match j
    case JNull => "null"
    case JBool(b) => if b then "true" else "false"
    case JNum(n) => Text.IntToString(n)
    case JStr(s) => s
    case JObj(_) => "[object Object]"
    case JArr(es) =>
      JoinComma(seq(|es|, i requires 0 <= i < |es| => if es[i].JNull? then "" else ToJsString(es[i])))
  }
}

=== FILE: leads.dfy ===
/** The lead records form.js sends: the draft built from a validated form,
    the pending-verification slot, and the two shapes of the lead-save payload. */
module Leads {
  import opened JsonValue
  import Validation

  /** The project name every form on the page submits. */
  const ProjectName: string := "Max Sector 105"

  /** The marker put in front of the name on the verified save. */
  const VerifiedPrefix: string := "OTP_"

  /** The send-OTP payload `{page_url, project_name, name, mobile, city}`. */
  datatype Draft = Draft(pageUrl: string, projectName: string, name: string, mobile: string, city: string)

  /** What the pending slot holds between a successful send-OTP and the end of verification. */
  datatype Pending = Pending(draft: Draft, token: Json)

  /** The verified save adds `otp_token` and `otp_verified: true`; the first save has neither key. */
  datatype Verification = Unverified | OtpVerified(token: Json)

  /** A body for the lead-save endpoint. */
  datatype LeadPayload = LeadPayload(fields: Draft, verification: Verification)

  /** A draft as the submit handler builds it from a validated form. */
  predicate ValidDraft(d: Draft) {
    && d.projectName == ProjectName
    && d.name != ""
    && d.city != ""
    && Validation.IsPhoneNumber(d.mobile)
  }

  /** The slot's contents are always a built draft with the token send-OTP returned. */
  predicate ValidPending(p: Pending) {
    ValidDraft(p.draft) && IsTruthy(p.token)
  }

  /** The payload built for a contact at page `href`. */
  function DraftOf(c: Validation.Contact, href: string): (d: Draft)
    requires c.name != "" && c.city != "" && Validation.IsPhoneNumber(c.phone)
    ensures ValidDraft(d)
    ensures d.pageUrl == href && d.name == c.name && d.mobile == c.phone && d.city == c.city
  {
    Draft(href, ProjectName, c.name, c.phone, c.city)
  }

  /** The untokenised save of the plain draft, used for the first and the fallback save. */
  function PlainPayload(d: Draft): (p: LeadPayload)
    ensures p.fields == d && p.verification.Unverified?
  {
    LeadPayload(d, Unverified)
  }

  /** The verified save built from the slot after verify-OTP succeeded. `href`
      is the page address at that moment, used only when the stored one is
      empty; an empty project name would fall back to "Sobha". */
  function VerifiedPayload(p: Pending, href: string): (r: LeadPayload)
    ensures r.fields.name == VerifiedPrefix + p.draft.name
    ensures r.fields.mobile == p.draft.mobile && r.fields.city == p.draft.city
    ensures r.fields.pageUrl == (if p.draft.pageUrl != "" then p.draft.pageUrl else href)
    ensures r.fields.projectName == (if p.draft.projectName != "" then p.draft.projectName else "Sobha")
    ensures r.verification == OtpVerified(p.token)
  {
    var d := p.draft;
    LeadPayload(
      Draft(
        if d.pageUrl != "" then d.pageUrl else href,
        if d.projectName != "" then d.projectName else "Sobha",
        VerifiedPrefix + d.name,
        d.mobile,
        d.city),
      OtpVerified(p.token))
  }

  /** For a slot the submit handler filled, the verified save repeats the draft
      except for the marked name, and carries the slot's token. */
  lemma VerifiedPayloadOfValidSlot(p: Pending, href: string)
    requires ValidPending(p) && p.draft.pageUrl != ""
    ensures VerifiedPayload(p, href)
      == LeadPayload(p.draft.(name := VerifiedPrefix + p.draft.name), OtpVerified(p.token))
    ensures VerifiedPayload(p, href).fields.name != p.draft.name
  {
    assert |VerifiedPayload(p, href).fields.name| == |p.draft.name| + 4;
  }
}

=== FILE: machine.dfy ===
/** The submission and resend handlers of form.js as one state machine. The
    page's shared state is the pending slot, the first-save flag and the resend
    countdown; every handler run is split at its `await`s, so that each
    network reply, timer firing and user action is one event and one pure step. */
module Submission {
  import opened Wrappers
  import opened JsonValue
  import opened Text
  import V = Validation
  import opened Leads
  import opened LeadApi
  import opened Reconcile
  import T = ResendTimer

  /** Which of the two resend entry points started a resend: the button's
      click handler or the `resendOTP` function exposed on `window`. */
  datatype ResendTrigger = Button | Programmatic

  /** The `await` a handler is suspended on, if any. */
  datatype Phase =
    | Ready                                 // no handler is waiting
    | SendingOtp(draft: Draft)              // submit handler: `await sendOTP(...)`
    | SavingFallback(failure: SendOutcome)  // submit handler: tokenless save after a failed send
    | SavingFirst                           // submit handler: first save after a successful send
    | Verifying(slot: Pending, href: string) // OTP handler: `await verifyOTP(...)`
    | RetryPrompt                           // OTP handler: the failure popup awaits dismissal
    | SavingVerified                        // OTP handler: the verified save
    | Resending(trigger: ResendTrigger)     // a resend handler: `await resendOTP(...)`

  /** `pendingFormData`, `firstSubmitDone`, the resend countdown, and the phase. */
  datatype State = State(pending: Option<Pending>, firstSubmitDone: bool, timer: T.Timer, phase: Phase)

  const Init: State := State(None, false, T.Initial, Ready)

  /** What can happen next on the page. `href` is the page address at that moment. */
  datatype Event =
    | SubmitForm(form: V.FormInput, href: string)
    | SubmitOtp(otp: string, href: string)
    | Response(resp: HttpResponse)          // the reply to the outstanding request
    | TimerFired                            // the one-second interval fires
    | ResendClick
    | ResendCall
    | DismissRetry

  /** The popups the handlers raise, by their title. */
  datatype Notice =
    | MissingFieldsNotice(fields: seq<V.Field>)
    | InvalidPhoneNotice
    | SubmittedWithoutOtp
    | SendAndSaveFailed(error: Option<ApiError>)
    | CheckWhatsApp
    | MissingOtpNotice
    | InvalidOtpNotice
    | NoFormData
    | VerificationFailed(error: Option<ApiError>)
    | VerifiedAndSaved
    | AlreadySaved
    | PartialSuccess(server: ServerMessage)
    | NoTokenToResend(via: ResendTrigger)
    | OtpResent(trigger: ResendTrigger)
    | ResendFailed(cause: ApiError)

  /** What a step asks of the outside world. */
  datatype Effect =
    | SendOtp(draft: Draft)
    | ResendOtp(token: Json)
    | VerifyOtp(token: Json, otp: string)
    | SaveLead(payload: LeadPayload)
    | Show(notice: Notice)
    | OpenOtpDialog
    | ScheduleRedirect

  predicate IsRequest(e: Effect) {
    e.SendOtp? || e.ResendOtp? || e.VerifyOtp? || e.SaveLead?
  }

  predicate NoRequests(es: seq<Effect>) {
    forall i :: 0 <= i < |es| ==> !IsRequest(es[i])
  }

  datatype Transition = Transition(next: State, effects: seq<Effect>)

  /** The facts every reachable state satisfies. */
  predicate Inv(s: State) {
    && (s.pending.Some? ==> ValidPending(s.pending.value))
    && T.Valid(s.timer)
    && (s.timer.running || s.timer.enabled ==> s.pending.Some?)
    && match s.phase
       case Ready => true
       case SendingOtp(d) => ValidDraft(d)
       case SavingFallback(f) => !f.TokenIssued?
       case SavingFirst => s.pending.Some?
       case Verifying(p, _) => s.pending == Some(p)
       case RetryPrompt => s.pending.Some?
       case SavingVerified => s.pending.Some?
       case Resending(_) => s.pending.Some? && !s.timer.running && !s.timer.enabled
  }

  /** The error text of the "Could not send OTP" popup: `undefined` when the body had no token. */
  function SendErrorOf(f: SendOutcome): Option<ApiError> {
    match f
    case SendError(e) => Some(e)
    case _ => None
  }

  /** The token the slot offers to the OTP and resend handlers (`pendingFormData && pendingFormData.token`). */
  function UsableToken(s: State): (t: Option<Json>)
    ensures t.Some? <==> s.pending.Some? && IsTruthy(s.pending.value.token)
    ensures t.Some? ==> t.value == s.pending.value.token
  {
    if s.pending.Some? && IsTruthy(s.pending.value.token) then Some(s.pending.value.token) else None
  }

  // ------------------------------------------------------------ user events

  /** The lead-form submit handler up to its first `await`. */
  function OnSubmitForm(s: State, form: V.FormInput, href: string): Transition {
    match V.ValidateForm(form)
    case Failure(err) =>
      if err.MissingFields? then Transition(s, [Show(MissingFieldsNotice(err.fields))])
      else Transition(s, [Show(InvalidPhoneNotice)])
    case Success(c) =>
      var d := DraftOf(c, href);
      Transition(s.(phase := SendingOtp(d)), [SendOtp(d)])
  }

  /** The OTP form submit handler up to its first `await`. */
  function OnSubmitOtp(s: State, raw: string, href: string): Transition {
    match V.ValidateOtp(raw)
    case Failure(err) =>
      Transition(s, [Show(if err.MissingOtp? then MissingOtpNotice else InvalidOtpNotice)])
    case Success(otp) =>
      match UsableToken(s)
      case None => Transition(s, [Show(NoFormData)])
      case Some(token) => Transition(s.(phase := Verifying(s.pending.value, href)), [VerifyOtp(token, otp)])
  }

  /** Either resend handler up to its `await`. */
  function OnResend(s: State, via: ResendTrigger): Transition {
    match UsableToken(s)
    case None => Transition(s, [Show(NoTokenToResend(via))])
    case Some(token) =>
      Transition(s.(timer := T.DisableImmediate(s.timer), phase := Resending(via)), [ResendOtp(token)])
  }

  // -------------------------------------------------------- network replies

  /** The effects of the verified save's outcome: a popup, and the redirect unless it failed outright. */
  function OutcomeEffects(o: SaveOutcome): (es: seq<Effect>)
    ensures ScheduleRedirect in es <==> Redirects(o)
    ensures NoRequests(es)
    ensures o.Stored? ==> Show(VerifiedAndSaved) in es
    ensures o.Duplicate? ==> Show(AlreadySaved) in es
    ensures o.HardFailure? ==> es == [Show(PartialSuccess(o.message))]
  {
    match o
    case Stored => [Show(VerifiedAndSaved), ScheduleRedirect]
    case Duplicate => [Show(AlreadySaved), ScheduleRedirect]
    case HardFailure(m) => [Show(PartialSuccess(m))]
  }

  /** The submit handler resumes with send-OTP's reply: the draft is saved
      once either way, and stored with its token only when one came back. */
  function AfterSend(s: State, d: Draft, resp: HttpResponse): Transition {
    var sent := InterpretSend(resp);
    if sent.TokenIssued? then
      Transition(s.(pending := Some(Pending(d, sent.token)), phase := SavingFirst), [SaveLead(PlainPayload(d))])
    else
      Transition(s.(phase := SavingFallback(sent)), [SaveLead(PlainPayload(d))])
  }

  /** The submit handler resumes with the tokenless save's reply. */
  function AfterFallbackSave(s: State, f: SendOutcome, resp: HttpResponse): Transition {
    var saved := InterpretSave(resp);
    Transition(s.(phase := Ready),
      [Show(if saved.ok then SubmittedWithoutOtp else SendAndSaveFailed(SendErrorOf(f)))])
  }

  /** The submit handler resumes with the first save's reply. */
  function AfterFirstSave(s: State, resp: HttpResponse): Transition {
    var saved := InterpretSave(resp);
    Transition(s.(firstSubmitDone := saved.ok, timer := T.Start(30), phase := Ready),
      [Show(CheckWhatsApp), OpenOtpDialog])
  }

  /** The OTP handler resumes with verify-OTP's reply. */
  function AfterVerify(s: State, p: Pending, href: string, resp: HttpResponse): Transition {
    match InterpretVerify(resp)
    case OtpAccepted => Transition(s.(phase := SavingVerified), [SaveLead(VerifiedPayload(p, href))])
    case OtpRefused => Transition(s.(phase := RetryPrompt), [Show(VerificationFailed(None))])
    case VerifyError(e) => Transition(s.(phase := RetryPrompt), [Show(VerificationFailed(Some(e)))])
  }

  /** The OTP handler resumes with the verified save's reply and ends the session. */
  function AfterVerifiedSave(s: State, resp: HttpResponse): Transition {
    var outcome := Classify(InterpretSave(resp));
    Transition(State(None, false, T.Clear(s.timer), Ready), OutcomeEffects(outcome))
  }

  /** A resend handler resumes with resend-OTP's reply. */
  function AfterResend(s: State, via: ResendTrigger, resp: HttpResponse): Transition {
    match InterpretResend(resp)
    case Resent => Transition(s.(timer := T.Start(30), phase := Ready), [Show(OtpResent(via))])
    case ResendError(e) => Transition(s.(timer := T.Start(10), phase := Ready), [Show(ResendFailed(e))])
  }

  /** The handler waiting in `s.phase` resumes with the reply `resp`. */
  function OnResponse(s: State, resp: HttpResponse): Transition {
    match s.phase
    case Ready => Transition(s, [])
    case RetryPrompt => Transition(s, [])
    case SendingOtp(d) => AfterSend(s, d, resp)
    case SavingFallback(f) => AfterFallbackSave(s, f, resp)
    case SavingFirst => AfterFirstSave(s, resp)
    case Verifying(p, href) => AfterVerify(s, p, href, resp)
    case SavingVerified => AfterVerifiedSave(s, resp)
    case Resending(via) => AfterResend(s, via, resp)
  }

  /** One event. Concurrency is left out: while a reply is awaited, only that
      reply and timer firings are delivered, the failure popup takes only its
      dismissal, and a disabled resend button delivers no click. */
  function Step(s: State, e: Event): Transition {
    match e
    case TimerFired => Transition(s.(timer := T.Tick(s.timer)), [])
    case Response(resp) => OnResponse(s, resp)
    case DismissRetry =>
      if s.phase.RetryPrompt? then Transition(s.(timer := T.Start(30), phase := Ready), [OpenOtpDialog])
      else Transition(s, [])
    case SubmitForm(form, href) => if s.phase.Ready? then OnSubmitForm(s, form, href) else Transition(s, [])
    case SubmitOtp(otp, href) => if s.phase.Ready? then OnSubmitOtp(s, otp, href) else Transition(s, [])
    case ResendClick => if s.phase.Ready? && s.timer.enabled then OnResend(s, Button) else Transition(s, [])
    case ResendCall => if s.phase.Ready? then OnResend(s, Programmatic) else Transition(s, [])
  }

  /** A run of events under the step function `step`: the final state and
      every effect, in order. */
  function RunWith(step: (State, Event) -> Transition, s: State, es: seq<Event>): Transition
    decreases |es|
  {
    if es == [] then Transition(s, [])
    else
      var t := step(s, es[0]);
      var rest := RunWith(step, t.next, es[1..]);
      Transition(rest.next, t.effects + rest.effects)
  }

  /** A run of events on the page. */
  function Run(s: State, es: seq<Event>): Transition {
    RunWith(Step, s, es)
  }

  // ---------------------------------------------------------------- lemmas

  /** A run of two event lists is the run of the first followed by the run of
      the second from where the first ended. */
  lemma {:induction false} RunAppend(step: (State, Event) -> Transition, s: State, a: seq<Event>, b: seq<Event>)
    ensures var ra := RunWith(step, s, a); var rb := RunWith(step, ra.next, b);
      RunWith(step, s, a + b) == Transition(rb.next, ra.effects + rb.effects)
    decreases |a|
  {
    if a == [] {
      assert a + b == b;
    } else {
      var t := step(s, a[0]);
      assert (a + b)[0] == a[0];
      assert (a + b)[1..] == a[1..] + b;
      RunAppend(step, t.next, a[1..], b);
    }
  }

  /** A run is its first step followed by the run of the rest. */
  lemma RunFirst(s: State, e: Event, es: seq<Event>)
    ensures var t := Step(s, e); var r := Run(t.next, es);
      Run(s, [e] + es) == Transition(r.next, t.effects + r.effects)
  {
    assert ([e] + es)[0] == e;
    assert ([e] + es)[1..] == es;
  }

  lemma InitSatisfiesInv()
    ensures Inv(Init)
  {
  }

  /** Every step keeps the invariant. */
  lemma StepPreservesInv(s: State, e: Event)
    requires Inv(s)
    ensures Inv(Step(s, e).next)
  {
    match e
    case Response(resp) =>
      if s.phase.SendingOtp? {
        var sent := InterpretSend(resp);
        if sent.TokenIssued? {
          assert ValidPending(Pending(s.phase.draft, sent.token));
        }
      }
    case _ =>
  }

  /** Every run from a state satisfying the invariant ends in one. */
  lemma {:induction false} RunPreservesInv(s: State, es: seq<Event>)
    requires Inv(s)
    ensures Inv(Run(s, es).next)
    decreases |es|
  {
    if es != [] {
      StepPreservesInv(s, es[0]);
      RunPreservesInv(Step(s, es[0]).next, es[1..]);
    }
  }

  /** On every page reached from the initial one, a filled slot always offers
      its token: the "no token" refusals of the OTP and resend handlers fire
      only when nothing is stored. */
  lemma ReachableSlotHasUsableToken(es: seq<Event>)
    ensures var s := Run(Init, es).next;
      (UsableToken(s).Some? <==> s.pending.Some?)
      && (s.pending.Some? ==> UsableToken(s) == Some(s.pending.value.token))
  {
    InitSatisfiesInv();
    RunPreservesInv(Init, es);
  }

  // ------------------------------------------------------ lead form submit

  /** A lead form is turned away, with nothing sent and nothing changed, iff
      validation fails; the popup names exactly what failed. An accepted form
      sends its draft to send-OTP and leaves the pending slot alone. */
  lemma FormRejectedIffInvalid(s: State, form: V.FormInput, href: string)
    requires s.phase.Ready?
    ensures var t := Step(s, SubmitForm(form, href));
      (t.next == s && NoRequests(t.effects)) <==> V.ValidateForm(form).Failure?
    ensures var t := Step(s, SubmitForm(form, href)); var v := V.ValidateForm(form);
      (v.Failure? && v.error.MissingFields? ==> t.effects == [Show(MissingFieldsNotice(v.error.fields))])
      && (v.Failure? && v.error.InvalidPhone? ==> t.effects == [Show(InvalidPhoneNotice)])
    ensures var t := Step(s, SubmitForm(form, href)); var v := V.ValidateForm(form);
      v.Success? ==>
        && |t.effects| == 1 && t.effects[0].SendOtp?
        && var d := t.effects[0].draft;
           && ValidDraft(d) && d.pageUrl == href
           && d.name == v.value.name && d.mobile == v.value.phone && d.city == v.value.city
           && t.next.pending == s.pending && t.next.phase == SendingOtp(d)
  {
  }

  /** After a failed send-OTP the lead is still saved once, without a token,
      and the pending slot is not written. */
  lemma SendFailureSavesOnceWithoutToken(s: State, resp: HttpResponse)
    requires s.phase.SendingOtp? && !InterpretSend(resp).TokenIssued?
    ensures var t := Step(s, Response(resp));
      && t.effects == [SaveLead(LeadPayload(s.phase.draft, Unverified))]
      && t.next.pending == s.pending && t.next.timer == s.timer
  {
  }

  /** The tokenless save ends the submission: the popup says whether it was
      stored, and no further request follows. */
  lemma FallbackSaveEndsSubmission(s: State, resp: HttpResponse)
    requires Inv(s) && s.phase.SavingFallback?
    ensures var t := Step(s, Response(resp));
      && t.next == s.(phase := Ready) && NoRequests(t.effects)
      && (t.effects == [Show(SubmittedWithoutOtp)] <==> IsOkReply(resp))
    ensures !IsOkReply(resp) ==>
      Step(s, Response(resp)).effects == [Show(SendAndSaveFailed(SendErrorOf(s.phase.failure)))]
  {
  }

  /** A 2xx send-OTP body that parses but carries no token, followed by a
      failed fallback save, shows the failure popup without an error text
      (the wrapper's missing `error`, shown as `undefined`). */
  lemma TokenlessBodyShowsNoError(d: Draft, sendResp: HttpResponse, saveResp: HttpResponse)
    requires ValidDraft(d) && IsOkReply(sendResp) && JsonBody(sendResp).Some?
    requires JsonBody(sendResp).value != JNull && ExtractToken(JsonBody(sendResp).value).None?
    requires !IsOkReply(saveResp)
    ensures var s := Init.(phase := SendingOtp(d));
      var t1 := Step(s, Response(sendResp));
      t1.effects == [SaveLead(PlainPayload(d))]
      && Step(t1.next, Response(saveResp)).effects == [Show(SendAndSaveFailed(None))]
  {
    var s := Init.(phase := SendingOtp(d));
    assert InterpretSend(sendResp) == NoToken;
    var t1 := Step(s, Response(sendResp));
    assert t1.next == s.(phase := SavingFallback(NoToken));
    FallbackSaveEndsSubmission(t1.next, saveResp);
  }

  /** A successful send-OTP stores the draft with its token; the first save
      still goes out untokenized. */
  lemma SendSuccessStoresToken(s: State, resp: HttpResponse)
    requires Inv(s) && s.phase.SendingOtp? && InterpretSend(resp).TokenIssued?
    ensures var t := Step(s, Response(resp));
      && t.next.pending == Some(Pending(s.phase.draft, InterpretSend(resp).token))
      && ValidPending(t.next.pending.value)
      && t.effects == [SaveLead(LeadPayload(s.phase.draft, Unverified))]
  {
  }

  /** Whatever the first save's reply, the OTP dialog opens and the countdown
      restarts at 30; the flag records whether that save succeeded. */
  lemma FirstSaveOpensOtpDialog(s: State, resp: HttpResponse)
    requires Inv(s) && s.phase.SavingFirst?
    ensures var t := Step(s, Response(resp));
      && t.next.firstSubmitDone == IsOkReply(resp)
      && t.next.timer == T.Start(30) && !t.next.timer.enabled
      && t.next.pending == s.pending && t.next.phase.Ready?
      && OpenOtpDialog in t.effects && NoRequests(t.effects)
  {
  }

  // ------------------------------------------------------------ OTP submit

  /** The three OTP checks run in order (missing, malformed, no pending
      token); each rejection changes nothing and calls nothing. Only an OTP
      that passes all three is sent, with the stored token. */
  lemma OtpChecksInOrder(s: State, raw: string, href: string)
    requires s.phase.Ready?
    ensures var t := Step(s, SubmitOtp(raw, href));
      && (AllSpace(raw) ==> t == Transition(s, [Show(MissingOtpNotice)]))
      && (!AllSpace(raw) && !V.IsOtpCode(Trim(raw)) ==> t == Transition(s, [Show(InvalidOtpNotice)]))
      && (V.IsOtpCode(Trim(raw)) && UsableToken(s).None? ==> t == Transition(s, [Show(NoFormData)]))
    ensures var t := Step(s, SubmitOtp(raw, href));
      !NoRequests(t.effects) <==> V.IsOtpCode(Trim(raw)) && UsableToken(s).Some?
    ensures var t := Step(s, SubmitOtp(raw, href));
      V.IsOtpCode(Trim(raw)) && UsableToken(s).Some? ==>
        t.effects == [VerifyOtp(s.pending.value.token, Trim(raw))] && t.next.pending == s.pending
  {
    if V.IsOtpCode(Trim(raw)) {
      V.OtpCodeNeverMissing(raw);
      if UsableToken(s).Some? {
        assert IsRequest(Step(s, SubmitOtp(raw, href)).effects[0]);
      }
    }
  }

  /** An accepted OTP leads to exactly one save: the stored draft with the
      name prefixed, the stored token and the verified mark. */
  lemma AcceptedOtpSavesVerifiedLead(s: State, resp: HttpResponse)
    requires Inv(s) && s.phase.Verifying? && InterpretVerify(resp).OtpAccepted?
    ensures var t := Step(s, Response(resp)); var p := s.pending.value;
      && |t.effects| == 1 && t.effects[0].SaveLead?
      && var lead := t.effects[0].payload;
         && lead.fields.name == VerifiedPrefix + p.draft.name
         && lead.fields.mobile == p.draft.mobile && lead.fields.city == p.draft.city
         && lead.fields.projectName == p.draft.projectName
         && (p.draft.pageUrl != "" ==> lead.fields.pageUrl == p.draft.pageUrl)
         && lead.verification == OtpVerified(p.token)
         && t.next.pending == s.pending
  {
  }

  /** A refused or failed verification keeps the slot and its token; the
      popup carries the transport or status error when there was one. */
  lemma RefusedOtpKeepsSlot(s: State, resp: HttpResponse)
    requires Inv(s) && s.phase.Verifying? && !InterpretVerify(resp).OtpAccepted?
    ensures var t := Step(s, Response(resp));
      && t.next == s.(phase := RetryPrompt)
      && |t.effects| == 1 && t.effects[0].Show? && t.effects[0].notice.VerificationFailed?
      && var e := t.effects[0].notice.error;
         && (e.None? <==> IsOkReply(resp) && JsonBody(resp).Some? && JsonBody(resp).value != JNull)
         && (EarlyError(resp).Some? ==> e == EarlyError(resp))
  {
  }

  /** Dismissing the failure popup reopens the dialog with a fresh 30-second
      countdown, and a valid OTP entered next is checked against the same token. */
  lemma RetryReusesToken(s: State, raw: string, href: string)
    requires Inv(s) && s.phase.RetryPrompt?
    ensures var t := Step(s, DismissRetry);
      && Inv(t.next) && t.next.pending == s.pending
      && t.next.timer == T.Start(30) && t.effects == [OpenOtpDialog]
    ensures V.IsOtpCode(Trim(raw)) ==>
      Step(Step(s, DismissRetry).next, SubmitOtp(raw, href)).effects
        == [VerifyOtp(s.pending.value.token, Trim(raw))]
  {
    StepPreservesInv(s, DismissRetry);
    OtpChecksInOrder(Step(s, DismissRetry).next, raw, href);
  }

  /** The verified save's reply ends the session whatever it says: the slot is
      emptied, the flag cleared, the countdown stopped and resend disabled. The
      redirect is scheduled iff the save is stored or a duplicate. */
  lemma VerifiedSaveEndsSession(s: State, resp: HttpResponse)
    requires Inv(s) && s.phase.SavingVerified?
    ensures var t := Step(s, Response(resp));
      && t.next.pending.None? && !t.next.firstSubmitDone && t.next.phase.Ready?
      && !t.next.timer.running && !t.next.timer.enabled
      && NoRequests(t.effects)
    ensures var t := Step(s, Response(resp));
      ScheduleRedirect in t.effects <==> !Classify(InterpretSave(resp)).HardFailure?
    ensures IsOkReply(resp) || (resp.Reply? && resp.status == 409) ==>
      ScheduleRedirect in Step(s, Response(resp)).effects
  {
    var o := Classify(InterpretSave(resp));
    assert Step(s, Response(resp)) == Transition(State(None, false, T.Clear(s.timer), Ready), OutcomeEffects(o));
    if resp.Reply? && resp.status == 409 {
      ConflictIsDuplicate(resp.text, resp.parsed);
    }
  }

  // ---------------------------------------------------------------- resend

  /** Without a usable token (before any send-OTP succeeded, or once a
      session has ended) neither an OTP nor a resend goes out, and the state
      stays as it was. */
  lemma NoTokenNoRequests(s: State, raw: string, href: string)
    requires s.phase.Ready? && UsableToken(s).None?
    ensures Step(s, ResendCall) == Transition(s, [Show(NoTokenToResend(Programmatic))])
    ensures NoRequests(Step(s, ResendClick).effects) && Step(s, ResendClick).next == s
    ensures NoRequests(Step(s, SubmitOtp(raw, href)).effects) && Step(s, SubmitOtp(raw, href)).next == s
  {
  }

  /** The resend button is only enabled while a token is pending, so a click
      on it always resends that token and shows "Resending...". */
  lemma EnabledButtonResendsPendingToken(s: State)
    requires Inv(s) && s.phase.Ready? && s.timer.enabled
    ensures var t := Step(s, ResendClick);
      && t.effects == [ResendOtp(s.pending.value.token)]
      && !t.next.timer.enabled && !t.next.timer.running
      && t.next.timer.display == T.ResendingNow
      && t.next.pending == s.pending
  {
  }

  /** A resend reply restarts the countdown at 30 on success and at 10 on
      failure, and leaves the pending slot as it was. */
  lemma ResendReplyRestartsCountdown(s: State, resp: HttpResponse)
    requires Inv(s) && s.phase.Resending?
    ensures var t := Step(s, Response(resp));
      && t.next.pending == s.pending && t.next.phase.Ready? && Inv(t.next)
      && t.next.timer == T.Start(if IsOkReply(resp) && JsonBody(resp).Some? then 30 else 10)
      && NoRequests(t.effects)
  {
    StepPreservesInv(s, Response(resp));
  }

  // ------------------------------------------------------------- scenarios

  // Single steps of the happy path, each stated as the first step of a run.

  lemma SubmitStep(s: State, form: V.FormInput, href: string, rest: seq<Event>)
    requires s.phase.Ready? && V.ValidateForm(form).Success?
    ensures var c := V.ValidateForm(form).value; c.name != "" && c.city != "" && V.IsPhoneNumber(c.phone)
    ensures var d := DraftOf(V.ValidateForm(form).value, href); var r := Run(s.(phase := SendingOtp(d)), rest);
      Run(s, [SubmitForm(form, href)] + rest) == Transition(r.next, [SendOtp(d)] + r.effects)
  {
    RunFirst(s, SubmitForm(form, href), rest);
  }

  lemma SendStep(s: State, d: Draft, resp: HttpResponse, token: Json, rest: seq<Event>)
    requires s.phase == SendingOtp(d) && InterpretSend(resp) == TokenIssued(token)
    ensures var r := Run(s.(pending := Some(Pending(d, token)), phase := SavingFirst), rest);
      Run(s, [Response(resp)] + rest) == Transition(r.next, [SaveLead(PlainPayload(d))] + r.effects)
  {
    RunFirst(s, Response(resp), rest);
  }

  lemma FirstSaveStep(s: State, resp: HttpResponse, rest: seq<Event>)
    requires s.phase == SavingFirst
    ensures var r := Run(s.(firstSubmitDone := IsOkReply(resp), timer := T.Start(30), phase := Ready), rest);
      Run(s, [Response(resp)] + rest) == Transition(r.next, [Show(CheckWhatsApp), OpenOtpDialog] + r.effects)
  {
    RunFirst(s, Response(resp), rest);
  }

  lemma OtpStep(s: State, raw: string, href: string, p: Pending, rest: seq<Event>)
    requires s.phase.Ready? && V.IsOtpCode(Trim(raw)) && s.pending == Some(p) && IsTruthy(p.token)
    ensures var r := Run(s.(phase := Verifying(p, href)), rest);
      Run(s, [SubmitOtp(raw, href)] + rest) == Transition(r.next, [VerifyOtp(p.token, Trim(raw))] + r.effects)
  {
    V.OtpCodeNeverMissing(raw);
    RunFirst(s, SubmitOtp(raw, href), rest);
  }

  lemma VerifyStep(s: State, p: Pending, href: string, resp: HttpResponse, rest: seq<Event>)
    requires s.phase == Verifying(p, href) && InterpretVerify(resp).OtpAccepted?
    ensures var r := Run(s.(phase := SavingVerified), rest);
      Run(s, [Response(resp)] + rest) == Transition(r.next, [SaveLead(VerifiedPayload(p, href))] + r.effects)
  {
    RunFirst(s, Response(resp), rest);
  }

  lemma StoredStep(s: State, resp: HttpResponse)
    requires s.phase == SavingVerified && IsOkReply(resp)
    ensures Run(s, [Response(resp)]) == Transition(State(None, false, T.Clear(s.timer), Ready), [Show(VerifiedAndSaved), ScheduleRedirect])
  {
    RunFirst(s, Response(resp), []);
    assert [Response(resp)] + [] == [Response(resp)];
  }

  /** A token from send-OTP and any reply to the first save: the slot is
      filled, the draft is saved without the token, and the dialog opens. */
  lemma SendThenFirstSave(s: State, d: Draft, sent: HttpResponse, tok: Json, firstSave: HttpResponse)
    requires s.phase == SendingOtp(d) && InterpretSend(sent) == TokenIssued(tok)
    ensures Run(s, [Response(sent), Response(firstSave)])
      == Transition(s.(pending := Some(Pending(d, tok)), firstSubmitDone := IsOkReply(firstSave), timer := T.Start(30), phase := Ready),
                    [SaveLead(PlainPayload(d)), Show(CheckWhatsApp), OpenOtpDialog])
  {
    SendStep(s, d, sent, tok, [Response(firstSave)]);
    FirstSaveStep(s.(pending := Some(Pending(d, tok)), phase := SavingFirst), firstSave, []);
    assert [Response(firstSave)] + [] == [Response(firstSave)];
    assert [Response(sent)] + [Response(firstSave)] == [Response(sent), Response(firstSave)];
  }

  /** The lead-form half of the happy path: a valid form and a token from
      send-OTP end with the slot filled, the dialog open and the countdown at 30. */
  lemma FormHalf(s: State, form: V.FormInput, href: string, sent: HttpResponse, firstSave: HttpResponse)
    requires s.phase.Ready? && V.ValidateForm(form).Success? && InterpretSend(sent).TokenIssued?
    ensures var d := DraftOf(V.ValidateForm(form).value, href);
            var p := Pending(d, InterpretSend(sent).token);
            Run(s, [SubmitForm(form, href), Response(sent), Response(firstSave)])
              == Transition(s.(pending := Some(p), firstSubmitDone := IsOkReply(firstSave), timer := T.Start(30), phase := Ready),
                            [SendOtp(d), SaveLead(PlainPayload(d)), Show(CheckWhatsApp), OpenOtpDialog])
  {
    var c := V.ValidateForm(form).value;
    var tok := InterpretSend(sent).token;
    var rest := [Response(sent), Response(firstSave)];
    SubmitStep(s, form, href, rest);
    var d := DraftOf(c, href);
    SendThenFirstSave(s.(phase := SendingOtp(d)), d, sent, tok, firstSave);
    assert [SubmitForm(form, href)] + rest == [SubmitForm(form, href), Response(sent), Response(firstSave)];
  }

  /** The OTP half of the happy path: a valid OTP the server accepts and a
      stored verified lead end the session with a redirect. */
  lemma OtpHalf(s: State, p: Pending, raw: string, href: string, verified: HttpResponse, secondSave: HttpResponse)
    requires s.phase.Ready? && s.pending == Some(p) && IsTruthy(p.token) && V.IsOtpCode(Trim(raw))
    requires InterpretVerify(verified).OtpAccepted? && IsOkReply(secondSave)
    ensures Run(s, [SubmitOtp(raw, href), Response(verified), Response(secondSave)])
      == Transition(State(None, false, T.Clear(s.timer), Ready),
                    [VerifyOtp(p.token, Trim(raw)), SaveLead(VerifiedPayload(p, href)), Show(VerifiedAndSaved), ScheduleRedirect])
  {
    OtpStep(s, raw, href, p, [Response(verified), Response(secondSave)]);
    var s1 := s.(phase := Verifying(p, href));
    VerifyStep(s1, p, href, verified, [Response(secondSave)]);
    StoredStep(s1.(phase := SavingVerified), secondSave);
    assert [Response(verified)] + [Response(secondSave)] == [Response(verified), Response(secondSave)];
    assert [SubmitOtp(raw, href)] + [Response(verified), Response(secondSave)]
        == [SubmitOtp(raw, href), Response(verified), Response(secondSave)];
  }

  /** The whole happy path: a valid form, a token from send-OTP, a valid OTP
      the server accepts and a stored verified lead. Exactly four requests go
      out, in this order, and the session ends cleared with a redirect. */
  lemma HappyPath(form: V.FormInput, href: string, sent: HttpResponse, firstSave: HttpResponse,
                  raw: string, otpHref: string, verified: HttpResponse, secondSave: HttpResponse)
    requires V.ValidateForm(form).Success?
    requires InterpretSend(sent).TokenIssued?
    requires V.IsOtpCode(Trim(raw))
    requires InterpretVerify(verified).OtpAccepted?
    requires IsOkReply(secondSave)
    ensures var d := DraftOf(V.ValidateForm(form).value, href);
            var tok := InterpretSend(sent).token;
            var r := Run(Init, [SubmitForm(form, href), Response(sent), Response(firstSave)]
                               + [SubmitOtp(raw, otpHref), Response(verified), Response(secondSave)]);
      && r.effects == [SendOtp(d), SaveLead(PlainPayload(d)), Show(CheckWhatsApp), OpenOtpDialog]
                    + [VerifyOtp(tok, Trim(raw)), SaveLead(VerifiedPayload(Pending(d, tok), otpHref)),
                       Show(VerifiedAndSaved), ScheduleRedirect]
      && r.next.pending.None? && r.next.phase.Ready?
  {
    var d := DraftOf(V.ValidateForm(form).value, href);
    var p := Pending(d, InterpretSend(sent).token);
    var first := [SubmitForm(form, href), Response(sent), Response(firstSave)];
    var second := [SubmitOtp(raw, otpHref), Response(verified), Response(secondSave)];
    FormHalf(Init, form, href, sent, firstSave);
    var mid := Run(Init, first).next;
    OtpHalf(mid, p, raw, otpHref, verified, secondSave);
    RunAppend(Step, Init, first, second);
  }

  /** A refused OTP followed by a dismissed popup: back to awaiting an OTP,
      the slot and token unchanged, the countdown at 30. */
  lemma RefusedThenRetry(s: State, resp: HttpResponse)
    requires Inv(s) && s.phase.Verifying? && InterpretVerify(resp).OtpRefused?
    ensures var r := Run(s, [Response(resp), DismissRetry]);
      && r.next == s.(timer := T.Start(30), phase := Ready)
      && r.effects == [Show(VerificationFailed(None)), OpenOtpDialog]
  {
    var s1 := s.(phase := RetryPrompt);
    assert Step(s, Response(resp)) == Transition(s1, [Show(VerificationFailed(None))]);
    RunFirst(s1, DismissRetry, []);
    RunFirst(s, Response(resp), [DismissRetry]);
  }
}

=== FILE: reconcile.dfy ===
/** How the OTP form handler reads the result of the verified save: a stored
    lead, an "already saved" duplicate that is still a success for the user,
    or a hard failure reported with the best message the server gave. */
module Reconcile {
  import opened Wrappers
  import opened JsonValue
  import opened Text
  import opened LeadApi

  datatype SaveOutcome = Stored | Duplicate | HardFailure(message: ServerMessage)

  /** Where the partial-success warning takes its server text from: a field of
      the JSON body (shown through `String(...)`), the whole body serialised by
      `JSON.stringify` (its rendering is not modelled), or a plain string. */
  datatype ServerMessage = BodyField(value: Json) | SerializedBody(body: Json) | Plain(text: string)

  /** A string-valued key of the save result, as a JSON string. */
  function StringKey(v: Option<string>): Option<Json> {
    match v
    case Some(s) => Some(JStr(s))
    case None => None
  }

  /** `bodyJson && (bodyJson.msg || bodyJson.message || bodyJson.error)`, as an
      optional value whose falsy outcomes are all dropped by `filter(Boolean)`. */
  function DuplicateField(r: SaveResult): Option<Json> {
    if Truthy(r.bodyJson) then
      var body := r.bodyJson.value;
      Or(Or(Get(body, "msg"), Get(body, "message")), Get(body, "error"))
    else None
  }

  /** `v` kept by `filter(Boolean)` and passed through `String(v).toLowerCase()`. */
  function Keep(v: Option<Json>): (cs: seq<string>)
    ensures |cs| <= 1
    ensures cs != [] <==> Truthy(v)
    ensures Truthy(v) ==> cs[0] == LowerAscii(ToJsString(v.value))
    ensures Truthy(v) && v.value.JStr? ==> cs[0] == LowerAscii(v.value.s)
  {
    if Truthy(v) then [LowerAscii(ToJsString(v.value))] else []
  }

  /** The lowered message candidates, in source order: the body field, the body text, the error. */
  function Candidates(r: SaveResult): seq<string> {
    Keep(DuplicateField(r)) + Keep(StringKey(r.bodyText)) + Keep(StringKey(r.error))
  }

  /** The text test as written: "already" together with "submit", "submitted" or "contact". */
  predicate SaysAlreadySaved(s: string) {
    Contains(s, "already") && (Contains(s, "submit") || Contains(s, "submitted") || Contains(s, "contact"))
  }

  /** The same test without the redundant "submitted" alternative. */
  predicate SaysAlreadySavedSimplified(s: string) {
    Contains(s, "already") && (Contains(s, "submit") || Contains(s, "contact"))
  }

  /** Some candidate passes the text test (`msgCandidates.some(...)`). */
  function AnySaysAlreadySaved(cs: seq<string>): (b: bool)
    ensures b <==> exists i :: 0 <= i < |cs| && SaysAlreadySaved(cs[i])
  {
    if cs == [] then false
    else
      assert forall i :: 1 <= i < |cs| ==> cs[1..][i - 1] == cs[i];
      SaysAlreadySaved(cs[0]) || AnySaysAlreadySaved(cs[1..])
  }

  /** `duplicateDetected`. */
  predicate IsDuplicate(r: SaveResult) {
    AnySaysAlreadySaved(Candidates(r)) || r.status == Some(409)
  }

  /** The server text of the partial-success warning:
      `(bodyJson && (bodyJson.message || bodyJson.error || JSON.stringify(bodyJson)))
       || bodyText || error || "HTTP " + (status || "?")`. */
  function PickServerMessage(r: SaveResult): (m: ServerMessage)
    ensures m.BodyField? ==> Truthy(r.bodyJson) && IsTruthy(m.value)
    ensures m.SerializedBody? ==> Truthy(r.bodyJson) && Some(m.body) == r.bodyJson
    ensures m.Plain? ==> m.text != "" && !Truthy(r.bodyJson)
    // a truthy body answers first: its `message`, else its `error`, else the whole body
    ensures Truthy(r.bodyJson) && Truthy(Get(r.bodyJson.value, "message")) ==>
      m == BodyField(Get(r.bodyJson.value, "message").value)
    ensures (Truthy(r.bodyJson) && !Truthy(Get(r.bodyJson.value, "message"))
             && Truthy(Get(r.bodyJson.value, "error"))) ==>
      m == BodyField(Get(r.bodyJson.value, "error").value)
    ensures (Truthy(r.bodyJson) && !Truthy(Get(r.bodyJson.value, "message"))
             && !Truthy(Get(r.bodyJson.value, "error"))) ==>
      m == SerializedBody(r.bodyJson.value)
    // otherwise the first non-empty of the body text and the error, else the status
    ensures !Truthy(r.bodyJson) && r.bodyText.Some? && r.bodyText.value != "" ==>
      m == Plain(r.bodyText.value)
    ensures (!Truthy(r.bodyJson) && (r.bodyText.None? || r.bodyText.value == "")
             && r.error.Some? && r.error.value != "") ==>
      m == Plain(r.error.value)
    ensures (!Truthy(r.bodyJson) && (r.bodyText.None? || r.bodyText.value == "")
             && (r.error.None? || r.error.value == "")) ==>
      m == Plain("HTTP " + (if r.status.Some? && r.status.value != 0 then NatToString(r.status.value) else "?"))
  {
    if Truthy(r.bodyJson) then
      var body := r.bodyJson.value;
      var field := Or(Get(body, "message"), Get(body, "error"));
      if Truthy(field) then BodyField(field.value) else SerializedBody(body)
    else if r.bodyText.Some? && r.bodyText.value != "" then Plain(r.bodyText.value)
    else if r.error.Some? && r.error.value != "" then Plain(r.error.value)
    else if r.status.Some? && r.status.value != 0 then Plain("HTTP " + NatToString(r.status.value))
    else Plain("HTTP ?")
  }

  /** The outcome of the verified save. */
  function Classify(r: SaveResult): (o: SaveOutcome)
    ensures o.Stored? <==> r.ok
    ensures o.Duplicate? <==> (!r.ok && (r.status == Some(409)
      || exists i :: 0 <= i < |Candidates(r)| && SaysAlreadySavedSimplified(Candidates(r)[i])))
    ensures o.HardFailure? ==> o.message == PickServerMessage(r)
  {
    var cs := Candidates(r);
    forall i | 0 <= i < |cs| ensures SaysAlreadySaved(cs[i]) <==> SaysAlreadySavedSimplified(cs[i]) {
      SubmittedContainsSubmit(cs[i]);
    }
    if r.ok then Stored
    else if IsDuplicate(r) then Duplicate
    else HardFailure(PickServerMessage(r))
  }

  /** The user is sent on to the thank-you page exactly when the outcome is not a hard failure. */
  predicate Redirects(o: SaveOutcome) {
    !o.HardFailure?
  }

  /** A 409 reply is always a duplicate, whatever its body says. */
  lemma ConflictIsDuplicate(text: string, parsed: Option<Json>)
    ensures Classify(InterpretSave(Reply(409, text, parsed))) == Duplicate
  {
  }

  /** The save's own `HTTP <status>` error text never passes the text test, so
      for a non-2xx reply only the server's words can make it a duplicate. */
  lemma {:induction false} StatusTextNeverSaysAlreadySaved(status: nat)
    ensures !SaysAlreadySaved(LowerAscii(HttpErrorText(status)))
  {
    var h := HttpErrorText(status);
    var s := LowerAscii(h);
    forall i | 0 <= i < |s| ensures s[i] != 'a' {
      if i >= 5 {
        assert h[i] == h[5..][i - 5];
      }
    }
    if Contains(s, "already") {
      ContainsFirstChar(s, "already");
    }
  }

  /** Without a truthy JSON body, only the body text and the error can mark a duplicate. */
  lemma NoDuplicateWithoutJson(r: SaveResult, text: string, error: string)
    requires !Truthy(r.bodyJson) && r.bodyText == Some(text) && r.error == Some(error)
    requires !SaysAlreadySaved(LowerAscii(text)) && !SaysAlreadySaved(LowerAscii(error))
    ensures !AnySaysAlreadySaved(Candidates(r))
  {
    var cs := Candidates(r);
    assert cs == Keep(Some(JStr(text))) + Keep(Some(JStr(error)));
    forall i | 0 <= i < |cs| ensures !SaysAlreadySaved(cs[i]) {
      assert cs[i] == LowerAscii(text) || cs[i] == LowerAscii(error);
    }
  }

  /** A non-2xx reply with an empty body is never a duplicate unless it is a 409. */
  lemma {:induction false} EmptyRejectionIsHardFailure(status: nat)
    requires !IsOkStatus(status) && status != 409
    ensures Classify(InterpretSave(Reply(status, "", None))).HardFailure?
  {
    var r := InterpretSave(Reply(status, "", None));
    StatusTextNeverSaysAlreadySaved(status);
    NoDuplicateWithoutJson(r, "", HttpErrorText(status));
  }

  lemma AlreadySubmittedContactMatches()
    ensures SaysAlreadySaved(LowerAscii("Already submitted contact"))
  {
    var raw := "Already submitted contact";
    var c := LowerAscii(raw);
    assert c[0..7] == LowerAscii(raw[0..7]) == "already" by {
      LowerAsciiSlice(raw, 0, 7);
      assert raw[0..7] == "Already";
    }
    assert c[8..14] == LowerAscii(raw[8..14]) == "submit" by {
      LowerAsciiSlice(raw, 8, 14);
      assert raw[8..14] == "submit";
    }
    assert OccursAt(c, "already", 0);
    assert OccursAt(c, "submit", 8);
  }

  /** A failed save whose JSON `msg`, `message` or `error` field passes the text test is a duplicate. */
  lemma BodyFieldMarksDuplicate(r: SaveResult, m: string)
    requires !r.ok && DuplicateField(r) == Some(JStr(m)) && SaysAlreadySaved(LowerAscii(m))
    ensures Classify(r) == Duplicate
  {
    assert Candidates(r)[0] == LowerAscii(m);
  }

  /** The server answer "Already submitted contact" in a JSON `message` marks a duplicate. */
  lemma AlreadySubmittedMessageIsDuplicate(status: nat, text: string)
    requires !IsOkStatus(status) && text != ""
    ensures Classify(InterpretSave(Reply(status, text,
      Some(JObj([Member("message", JStr("Already submitted contact"))]))))) == Duplicate
  {
    var body := JObj([Member("message", JStr("Already submitted contact"))]);
    var r := InterpretSave(Reply(status, text, Some(body)));
    assert DuplicateField(r) == Some(JStr("Already submitted contact")) by {
      assert r.bodyJson == Some(body);
      assert Get(body, "msg") == None;
      assert Get(body, "message") == Some(JStr("Already submitted contact"));
    }
    AlreadySubmittedContactMatches();
    BodyFieldMarksDuplicate(r, "Already submitted contact");
  }

  /** An array `message` is read through `String(...)`, which joins its
      elements: `["Already submitted contact"]` marks a duplicate too. */
  lemma ArrayMessageIsDuplicate(status: nat, text: string)
    requires !IsOkStatus(status) && text != ""
    ensures Classify(InterpretSave(Reply(status, text,
      Some(JObj([Member("message", JArr([JStr("Already submitted contact")]))]))))) == Duplicate
  {
    var arr := JArr([JStr("Already submitted contact")]);
    var body := JObj([Member("message", arr)]);
    var r := InterpretSave(Reply(status, text, Some(body)));
    assert DuplicateField(r) == Some(arr) by {
      assert r.bodyJson == Some(body);
      assert Get(body, "msg") == None;
      assert Get(body, "message") == Some(arr);
    }
    assert ToJsString(arr) == "Already submitted contact";
    AlreadySubmittedContactMatches();
    assert Candidates(r)[0] == LowerAscii("Already submitted contact");
  }

  /** A plain-text 500 reply is a hard failure reported with its body text. */
  lemma PlainTextFailureShowsBody(status: nat, text: string)
    requires !IsOkStatus(status) && status != 409 && text != ""
    requires !SaysAlreadySaved(LowerAscii(text))
    ensures Classify(InterpretSave(Reply(status, text, None))) == HardFailure(Plain(text))
  {
    var r := InterpretSave(Reply(status, text, None));
    StatusTextNeverSaysAlreadySaved(status);
    NoDuplicateWithoutJson(r, text, HttpErrorText(status));
    assert PickServerMessage(r) == Plain(text);
  }

  /** A failed save without body text shows its own `HTTP <status>` error, so
      the `"?"` fallback is never reached by a reply. */
  lemma EmptyFailureShowsStatus(status: nat, parsed: Option<Json>)
    requires !IsOkStatus(status)
    ensures PickServerMessage(InterpretSave(Reply(status, "", parsed))) == Plain(HttpErrorText(status))
  {
  }

  /** A rejected `fetch` of the save is a hard failure showing the caught
      error's text, unless that text itself reads as "already submitted". */
  lemma NetworkFailureShowsCaughtText(message: string, rendered: string)
    requires CaughtText(message, rendered) != ""
    requires !SaysAlreadySaved(LowerAscii(CaughtText(message, rendered)))
    ensures Classify(InterpretSave(NetworkFailure(message, rendered)))
      == HardFailure(Plain(CaughtText(message, rendered)))
  {
    var r := InterpretSave(NetworkFailure(message, rendered));
    assert Candidates(r) == [LowerAscii(CaughtText(message, rendered))];
  }
}

=== FILE: text.dfy ===
/** String helpers with the meaning JavaScript gives them: `trim`, `includes`,
    `toLowerCase` on the letters that matter, and decimal rendering of numbers. */
module Text {

  /** The characters `String.prototype.trim` removes: the ECMAScript WhiteSpace
      code points (tab, vertical tab, form feed, space, no-break space, byte
      order mark and every Space_Separator) and the LineTerminator code points. */
  predicate IsJsSpace(c: char) {
    || c == '\t' || c == '\n' || c == '\U{000B}' || c == '\U{000C}' || c == '\r'
    || c == ' ' || c == '\U{00A0}' || c == '\U{1680}'
    || ('\U{2000}' <= c <= '\U{200A}')
    || c == '\U{2028}' || c == '\U{2029}' || c == '\U{202F}' || c == '\U{205F}'
    || c == '\U{3000}' || c == '\U{FEFF}'
  }

  predicate AllSpace(s: string) {
    forall i :: 0 <= i < |s| ==> IsJsSpace(s[i])
  }

  /** The length of the run of white space that starts the string. */
  function LeadingSpaces(s: string): (n: nat)
    ensures n <= |s|
    ensures forall i :: 0 <= i < n ==> IsJsSpace(s[i])
    ensures n == |s| || !IsJsSpace(s[n])
  {
    if |s| > 0 && IsJsSpace(s[0]) then 1 + LeadingSpaces(s[1..]) else 0
  }

  /** The length of the run of white space that ends the string. */
  function TrailingSpaces(s: string): (n: nat)
    ensures n <= |s|
    ensures forall i :: |s| - n <= i < |s| ==> IsJsSpace(s[i])
    ensures n == |s| || !IsJsSpace(s[|s| - n - 1])
  {
    if |s| > 0 && IsJsSpace(s[|s| - 1]) then 1 + TrailingSpaces(s[..|s| - 1]) else 0
  }

  /** `String.prototype.trim`: the slice between the leading and the trailing
      white space, empty when the string is nothing but white space. */
  function Trim(s: string): (r: string)
    ensures r == [] <==> AllSpace(s)
    ensures r != [] ==> var k, e := LeadingSpaces(s), |s| - TrailingSpaces(s);
      k < e && r == s[k..e] && !IsJsSpace(r[0]) && !IsJsSpace(r[|r| - 1])
  {
    var k := LeadingSpaces(s);
    if k < |s| then
      var e := |s| - TrailingSpaces(s);
      s[k..e]
    else
      []
  }

  /** Trimming an already trimmed string changes nothing. */
  lemma TrimIdempotent(s: string)
    ensures Trim(Trim(s)) == Trim(s)
  {
    var r := Trim(s);
    assert LeadingSpaces(r) == 0;
    assert TrailingSpaces(r) == 0;
  }

  predicate IsDigit(c: char) {
    '0' <= c <= '9'
  }

  /** Every character is an ASCII decimal digit (the `\d` class of a
      JavaScript regular expression without the `u` flag). */
  predicate AllDigits(s: string) {
    forall i :: 0 <= i < |s| ==> IsDigit(s[i])
  }

  /** `/^\d{lo,hi}$/.test(s)`. */
  predicate DigitsBetween(s: string, lo: nat, hi: nat) {
    lo <= |s| <= hi && AllDigits(s)
  }

  /** `p` occurs in `s` at position `i`. */
  predicate OccursAt(s: string, p: string, i: int) {
    0 <= i && i + |p| <= |s| && s[i..i + |p|] == p
  }

  /** `s.includes(p)`, searched left to right. */
  function Contains(s: string, p: string): (r: bool)
    ensures r <==> exists i :: OccursAt(s, p, i)
    decreases |s|
  {
    if |p| <= |s| && s[..|p|] == p then
      assert OccursAt(s, p, 0);
      true
    else if |s| == 0 then
      false
    else
      var rest := Contains(s[1..], p);
      assert rest ==> exists i :: OccursAt(s, p, i) by {
        if rest {
          var i :| OccursAt(s[1..], p, i);
          assert s[i + 1..i + 1 + |p|] == s[1..][i..i + |p|];
          assert OccursAt(s, p, i + 1);
        }
      }
      assert (exists i :: OccursAt(s, p, i)) ==> rest by {
        if exists i :: OccursAt(s, p, i) {
          var i :| OccursAt(s, p, i);
          assert i != 0;
          assert s[1..][i - 1..i - 1 + |p|] == s[i..i + |p|];
          assert OccursAt(s[1..], p, i - 1);
        }
      }
      rest
  }

  /** A string containing `"submitted"` contains `"submit"`: the third test of
      the duplicate check adds nothing to the first. */
  lemma SubmittedContainsSubmit(s: string)
    ensures Contains(s, "submitted") ==> Contains(s, "submit")
  {
    if Contains(s, "submitted") {
      var i :| OccursAt(s, "submitted", i);
      assert s[i..i + 6] == s[i..i + 9][..6];
      assert OccursAt(s, "submit", i);
    }
  }

  /** A needle's first character appears in every string that contains it. */
  lemma ContainsFirstChar(s: string, p: string)
    requires |p| > 0 && Contains(s, p)
    ensures exists i :: 0 <= i < |s| && s[i] == p[0]
  {
    var i :| OccursAt(s, p, i);
    assert s[i] == s[i..i + |p|][0];
  }

  function LowerChar(c: char): char {
    if 'A' <= c <= 'Z' then (c as int - 'A' as int + 'a' as int) as char else c
  }

  predicate IsUpperAscii(c: char) {
    'A' <= c <= 'Z'
  }

  /** `toLowerCase` restricted to ASCII letters: no capital is left, each
      capital becomes its small letter, every other character is kept. */
  function LowerAscii(s: string): (r: string)
    ensures |r| == |s|
    ensures forall i :: 0 <= i < |r| ==> !IsUpperAscii(r[i])
    ensures forall i :: 0 <= i < |s| && IsUpperAscii(s[i]) ==> r[i] as int == s[i] as int + 32
    ensures forall i :: 0 <= i < |s| && !IsUpperAscii(s[i]) ==> r[i] == s[i]
  {
    seq(|s|, i requires 0 <= i < |s| => LowerChar(s[i]))
  }

  /** Lowering a lowered string changes nothing. */
  lemma LowerAsciiIdempotent(s: string)
    ensures LowerAscii(LowerAscii(s)) == LowerAscii(s)
  {
  }

  /** Lowering commutes with slicing. */
  lemma LowerAsciiSlice(s: string, i: nat, j: nat)
    requires i <= j <= |s|
    ensures LowerAscii(s)[i..j] == LowerAscii(s[i..j])
  {
  }

  function DigitChar(d: nat): (c: char)
    requires d < 10
    ensures IsDigit(c)
  {
    ('0' as int + d) as char
  }

  function DigitValue(c: char): nat
    requires IsDigit(c)
  {
    c as int - '0' as int
  }

  /** The number a string of decimal digits denotes. */
  function DecimalValue(s: string): nat
    requires AllDigits(s)
  {
    if s == [] then 0 else DecimalValue(s[..|s| - 1]) * 10 + DigitValue(s[|s| - 1])
  }

  /** The decimal rendering JavaScript gives a non-negative integer (`${n}`). */
  function NatToString(n: nat): (r: string)
    ensures |r| >= 1 && AllDigits(r)
    ensures |r| > 1 ==> r[0] != '0'
  {
    if n < 10 then [DigitChar(n)] else NatToString(n / 10) + [DigitChar(n % 10)]
  }

  /** Rendering a number in decimal and reading the digits back gives the number. */
  lemma {:induction false} NatToStringRoundTrip(n: nat)
    ensures DecimalValue(NatToString(n)) == n
  {
    if n >= 10 {
      var r := NatToString(n);
      NatToStringRoundTrip(n / 10);
      assert r[..|r| - 1] == NatToString(n / 10);
    }
  }

  /** The decimal rendering of any integer, with a leading minus sign for negatives. */
  function IntToString(n: int): (r: string)
    ensures |r| >= 1
    ensures n < 0 <==> r[0] == '-'
    ensures n >= 0 ==> AllDigits(r) && DecimalValue(r) == n
    ensures n < 0 ==> |r| >= 2 && AllDigits(r[1..]) && DecimalValue(r[1..]) == -n
  {
    if n < 0 then
      NatToStringRoundTrip(-n);
      assert ("-" + NatToString(-n))[1..] == NatToString(-n);
      "-" + NatToString(-n)
    else
      NatToStringRoundTrip(n);
      NatToString(n)
  }
}

=== FILE: timer.dfy ===
/** The resend countdown of form.js as a discrete machine: one `Tick` is one
    firing of the one-second interval. */
module ResendTimer {

  /** What the text next to the resend button shows. */
  datatype Label = Countdown(seconds: int) | TapToResend | ResendingNow | Blank

  /** `remaining` is the closure counter of the live countdown, `running`
      whether an interval is scheduled, `enabled` whether the resend button
      can be clicked. */
  datatype Timer = Timer(remaining: int, running: bool, enabled: bool, display: Label)

  /** The state the resend elements are created in: disabled, "Resend in 30s", no interval. */
  const Initial: Timer := Timer(0, false, false, Countdown(30))

  /** A countdown that has an interval scheduled always shows its seconds and
      keeps the button disabled. */
  predicate Valid(t: Timer) {
    t.running ==> t.remaining >= 1 && !t.enabled && t.display == Countdown(t.remaining)
  }

  /** `startResendTimer(n)`: any earlier countdown is cancelled and forgotten,
      the button is disabled, and a fresh countdown of `n` begins. */
  function Start(n: int): (t: Timer)
    ensures t.running && !t.enabled && t.remaining == n
    ensures n >= 1 ==> Valid(t)
  {
    Timer(n, true, false, Countdown(n))
  }

  /** `stopResendTimer`: cancels the interval if there is one; nothing else changes. */
  function Stop(t: Timer): (r: Timer)
    ensures !r.running
    ensures r.(running := t.running) == t
  {
    t.(running := false)
  }

  /** `enableResend`. */
  function Enable(t: Timer): (r: Timer)
    ensures r.enabled && r.display == TapToResend && r.running == t.running
  {
    t.(enabled := true, display := TapToResend)
  }

  /** `disableResendImmediate`, run when a resend is requested. */
  function DisableImmediate(t: Timer): (r: Timer)
    ensures !r.running && !r.enabled && r.display == ResendingNow
    ensures Valid(r)
  {
    Stop(t).(enabled := false, display := ResendingNow)
  }

  /** The clean-up after the verified save: timer stopped, button disabled, text emptied. */
  function Clear(t: Timer): (r: Timer)
    ensures !r.running && !r.enabled && r.display == Blank
    ensures Valid(r)
  {
    Stop(t).(enabled := false, display := Blank)
  }

  /** One firing of the interval: count down, and on reaching zero stop and enable resend. */
  function Tick(t: Timer): (r: Timer)
    ensures !t.running ==> r == t
    ensures t.running && t.remaining - 1 <= 0 ==> !r.running && r.enabled
    ensures t.running && t.remaining - 1 > 0 ==> r.running && r.remaining == t.remaining - 1 && r.enabled == t.enabled
    ensures Valid(t) ==> Valid(r)
  {
    if !t.running then t
    else
      var remaining := t.remaining - 1;
      if remaining <= 0 then Enable(Stop(t.(remaining := remaining)))
      else t.(remaining := remaining, display := Countdown(remaining))
  }

  /** `k` successive firings. */
  function Ticks(t: Timer, k: nat): Timer
    decreases k
  {
    if k == 0 then t else Ticks(Tick(t), k - 1)
  }

  /** During a countdown of `n` the button stays disabled: after `k < n` firings
      the timer still runs with `n - k` seconds left. */
  lemma {:induction false} CountingDown(n: int, k: nat)
    requires k < n
    ensures Ticks(Start(n), k) == Timer(n - k, true, false, Countdown(n - k))
  {
    if k > 0 {
      CountingDown(n, k - 1);
      TicksSplit(Start(n), k - 1, 1);
    }
  }

  /** Firings compose. */
  lemma {:induction false} TicksSplit(t: Timer, a: nat, b: nat)
    ensures Ticks(t, a + b) == Ticks(Ticks(t, a), b)
    decreases a
  {
    if a > 0 {
      TicksSplit(Tick(t), a - 1, b);
    }
  }

  /** A stopped timer is left alone by any number of firings. */
  lemma {:induction false} StoppedStaysPut(t: Timer, k: nat)
    requires !t.running
    ensures Ticks(t, k) == t
  {
    if k > 0 {
      StoppedStaysPut(Tick(t), k - 1);
    }
  }

  /** `start(n)` enables resend after exactly `n` firings (one firing when `n`
      is not positive), and from then on the timer stays stopped and enabled. */
  lemma {:induction false} ExpiresAfterExactly(n: int, extra: nat)
    ensures var k := if n >= 1 then n else 1;
      var t := Ticks(Start(n), k + extra);
      !t.running && t.enabled && t.display == TapToResend
  {
    var k := if n >= 1 then n else 1;
    var before := Ticks(Start(n), k - 1);
    if n >= 1 {
      CountingDown(n, k - 1);
    }
    assert before.running && before.remaining <= 1;
    TicksSplit(Start(n), k - 1, 1);
    var expired := Ticks(Start(n), k);
    TicksSplit(Start(n), k, extra);
    StoppedStaysPut(expired, extra);
  }

  /** The thirty-second countdown after a send: disabled for 29 firings, enabled at the 30th. */
  lemma ThirtySecondCountdown()
    ensures !Ticks(Start(30), 29).enabled && Ticks(Start(30), 29).running
    ensures Ticks(Start(30), 30).enabled && !Ticks(Start(30), 30).running
  {
    CountingDown(30, 29);
    ExpiresAfterExactly(30, 0);
  }

  /** Stopping is idempotent, and stopping mid-countdown freezes it: after
      `start(30)`, ten firings and a stop, the button stays disabled whatever
      fires next. */
  lemma StopFreezes(t: Timer, k: nat)
    ensures Stop(Stop(t)) == Stop(t)
    ensures Ticks(Stop(Ticks(Start(30), 10)), k) == Timer(20, false, false, Countdown(20))
  {
    CountingDown(30, 10);
    StoppedStaysPut(Stop(Ticks(Start(30), 10)), k);
  }

  /** Halting the countdown is final: after a stop, the "Resending..." state or
      the clean-up, no firing of the interval changes the timer, so a resend in
      flight or a finished session can never have its button re-enabled. */
  lemma {:induction false} HaltedTimerIgnoresTicks(t: Timer, k: nat)
    ensures Ticks(Stop(t), k) == Stop(t)
    ensures Ticks(DisableImmediate(t), k) == DisableImmediate(t) && !Ticks(DisableImmediate(t), k).enabled
    ensures Ticks(Clear(t), k) == Clear(t) && !Ticks(Clear(t), k).enabled
  {
    StoppedStaysPut(Stop(t), k);
    StoppedStaysPut(DisableImmediate(t), k);
    StoppedStaysPut(Clear(t), k);
  }
}

=== FILE: validation.dfy ===
/** The checks form.js runs before any network call: required contact
    fields, the 10-digit phone number, and the 4–6 digit OTP. */
module Validation {
  import opened Wrappers
  import opened Text

  /** The three required inputs of a lead form, in the order they are checked. */
  datatype Field = Name | Phone | City

  function Rank(f: Field): nat {
    match f
    case Name => 0
    case Phone => 1
    case City => 2
  }

  /** Raw input values as the page holds them; `None` is an input element the form lacks. */
  datatype FormInput = FormInput(name: Option<string>, phone: Option<string>, city: Option<string>)

  /** Trimmed values of a form that passed validation. */
  datatype Contact = Contact(name: string, phone: string, city: string)

  datatype FormError = MissingFields(fields: seq<Field>) | InvalidPhone

  /** `el?.value.trim() || ""`: a missing element reads as the empty string. */
  function ReadField(v: Option<string>): (r: string)
    ensures v.None? ==> r == ""
    ensures v.Some? ==> (r == "" <==> AllSpace(v.value))
  {
    match v
    case None => ""
    case Some(raw) => Trim(raw)
  }

  /** The phone pattern `/^\d{10}$/`. */
  predicate IsPhoneNumber(s: string) {
    DigitsBetween(s, 10, 10)
  }

  /** The OTP pattern `/^\d{4,6}$/`. */
  predicate IsOtpCode(s: string) {
    DigitsBetween(s, 4, 6)
  }

  /** The value of field `f` in the trimmed triple. */
  function ValueOf(c: Contact, f: Field): string {
    match f
    case Name => c.name
    case Phone => c.phone
    case City => c.city
  }

  /** The list of empty fields, built by pushing Name, Phone and City in turn. */
  function Missing(c: Contact): (fs: seq<Field>)
    ensures forall f :: f in fs <==> ValueOf(c, f) == ""
    ensures forall i, j :: 0 <= i < j < |fs| ==> Rank(fs[i]) < Rank(fs[j])
  {
    (if c.name == "" then [Name] else [])
    + (if c.phone == "" then [Phone] else [])
    + (if c.city == "" then [City] else [])
  }

  /** The submit handler's checks: every field non-empty after trimming, then the phone format. */
  function ValidateForm(input: FormInput): (r: Result<Contact, FormError>)
    ensures var c := Contact(ReadField(input.name), ReadField(input.phone), ReadField(input.city));
      && (r.Failure? && r.error.MissingFields? <==> c.name == "" || c.phone == "" || c.city == "")
      && (r.Failure? && r.error.MissingFields? ==>
            forall f :: f in r.error.fields <==> ValueOf(c, f) == "")
      && (r.Failure? && r.error.InvalidPhone? <==>
            c.name != "" && c.phone != "" && c.city != "" && !IsPhoneNumber(c.phone))
      && (r.Success? ==> r.value == c && c.name != "" && c.city != "" && IsPhoneNumber(c.phone))
    ensures r.Failure? && r.error.MissingFields? ==>
      |r.error.fields| > 0 && forall i, j :: 0 <= i < j < |r.error.fields| ==>
        Rank(r.error.fields[i]) < Rank(r.error.fields[j])
  {
    var c := Contact(ReadField(input.name), ReadField(input.phone), ReadField(input.city));
    var missing := Missing(c);
    if |missing| > 0 then Failure(MissingFields(missing))
    else if !IsPhoneNumber(c.phone) then Failure(InvalidPhone)
    else Success(c)
  }

  /** A sorted list of distinct fields is determined by its members: the
      reported list is exactly the empty fields in Name, Phone, City order. */
  lemma {:induction false} MissingListIsCanonical(input: FormInput, fs: seq<Field>)
    requires ValidateForm(input).Failure? && ValidateForm(input).error.MissingFields?
    requires forall i, j :: 0 <= i < j < |fs| ==> Rank(fs[i]) < Rank(fs[j])
    requires forall f :: f in fs <==> f in ValidateForm(input).error.fields
    ensures fs == ValidateForm(input).error.fields
  {
    var gs := ValidateForm(input).error.fields;
    SortedByMembers(fs, gs);
  }

  lemma {:induction false} SortedByMembers(fs: seq<Field>, gs: seq<Field>)
    requires forall i, j :: 0 <= i < j < |fs| ==> Rank(fs[i]) < Rank(fs[j])
    requires forall i, j :: 0 <= i < j < |gs| ==> Rank(gs[i]) < Rank(gs[j])
    requires forall f :: f in fs <==> f in gs
    ensures fs == gs
    decreases |fs|
  {
    if fs != [] { assert fs[0] in gs; }
    if gs != [] { assert gs[0] in fs; }
    if fs != [] && gs != [] {
      // Both heads are the member of least rank.
      var a, b := fs[0], gs[0];
      assert b in fs;
      assert a in gs;
      assert a == b;
      forall f ensures f in fs[1..] <==> f in gs[1..] {
        if f in fs[1..] {
          var k :| 1 <= k < |fs| && fs[k] == f;
          assert f in gs;
          assert f != gs[0];
        }
        if f in gs[1..] {
          var k :| 1 <= k < |gs| && gs[k] == f;
          assert f in fs;
          assert f != fs[0];
        }
      }
      SortedByMembers(fs[1..], gs[1..]);
    }
  }

  datatype OtpError = MissingOtp | InvalidOtp

  /** The OTP form's format checks on the trimmed code: empty first, then the 4–6 digit pattern. */
  function ValidateOtp(raw: string): (r: Result<string, OtpError>)
    ensures r.Failure? && r.error.MissingOtp? <==> AllSpace(raw)
    ensures r.Failure? && r.error.InvalidOtp? <==> !AllSpace(raw) && !IsOtpCode(Trim(raw))
    ensures r.Success? ==> r.value == Trim(raw) && IsOtpCode(r.value)
  {
    var otp := Trim(raw);

    if otp == "" then Failure(MissingOtp)
    else if !IsOtpCode(otp) then Failure(InvalidOtp)
    else Success(otp)
  }

  /** A code the pattern accepts is never reported as missing: the two OTP
      errors are exclusive and the emptiness check alone decides `MissingOtp`. */
  lemma OtpCodeNeverMissing(raw: string)
    requires IsOtpCode(Trim(raw))
    ensures ValidateOtp(raw) == Success(Trim(raw))
  {
  }
}

=== FILE: wrappers.dfy ===
/** Failure-carrying datatypes shared by the whole model. */
module Wrappers {

  /** A value that may be absent; `None` plays the role of JavaScript's `undefined`. */
  datatype Option<+T> = None | Some(value: T) {

    /** The carried value, or `default` when absent. */
    function GetOr(default: T): T {
      match this
      case Some(v) => v
      case None => default
    }
  }

  /** Either a value or an error describing why there is none. */
  datatype Result<+T, +E> = Success(value: T) | Failure(error: E)
}
